=== FILE: README.md ===
# deepltranslator — a verified model of the translation codec

This project models the core of the `deepltranslator` Laravel console command. The command translates an application's language files with the DeepL API. The model covers the following, with each piece stated over PHP's ordered string-keyed arrays:

- **Guard.** Each `:placeholder` in a text is wrapped in `<ignore>` markers so that DeepL leaves it alone (`addIgnoreTagToVariables`). The guard is applied to every leaf of a nested translation array (`transformTranslation`).
- **Encoder.** A (possibly nested) array is flattened into one string per leaf. Each string carries the file name and its index keys as XML-like markers (`addIgnoreToTextForDeepL`).
- **Decoder.** The returned strings are read back with the tag extractor `everything_in_tags`. They are stripped of markers and stored into one keyed array (`handleTranslatedTexts`).
- **Command flow.** These are the parts of `handle` and `handleResponse` that decide what is sent and what is written: the filter that skips keys the target file already has, the batching into requests of at most 30 entries, and the `array_merge` with the existing target file.
- **Settings check.** `checkSettings` tests the configured URL and API key and the language codes against DeepL's list.

The modules follow the source's layers:

- `PhpString`: `str_replace`, `strpos`, `trim` and `strtoupper`.
- `PhpArray`: ordered arrays, `$a[$k] = $v` and `array_merge`.
- `Markup`: a token view of strings with markers, used in proofs.
- `Tags`: `everything_in_tags`.
- `Guard`, `Encoder`, `Decoder`, `Handle` and `Settings`.

The command's loops are methods proved against the recursive functions that specify them. The properties of those functions are proved as lemmas.

The lemmas show where the codec is exact and where it is not:

- **What survives.** A top-level entry `k => text` survives the full encode/decode round trip as `k => trim(text)`. This needs four conditions (`Decoder.Isolated`):
  - the text, the file name and the key hold no `<`/`>`;
  - the file name does not occur in the opening file-name marker, nor in anything after it (the closing marker, the index markers, the key and the guarded text);
  - the key does not occur in the file-name markers or the opening index marker before it;
  - the key does not occur in the closing index marker or the guarded text after it.
- **Key or file name inside a marker.** The `str_replace` of line 319 deletes the file name and the first key everywhere in the string, the markers included. So the key `name` cuts `<ignore-filename>` down to `<ignore-file>`, which is not on the list built at line 304. For file `m.php`, key `name` and text `Hello`, the value comes back as `<ignore-file></ignore-file>Hello`. Any key or file name that occurs in one of the marker names `ignore-filename`, `ignore-index` and `ignore` cuts the markers in the same way.
- **Nested arrays.** A leaf below a nested array is tagged only with the keys of the arrays above it, never with its own key. Every later sibling inherits the keys of the arrays before it.
  - One level down the structure is flattened: `a => [b => text]` comes back as `a => trim(text)`.
  - Two levels down it is not: `a => [b => [c => text]]` is tagged with `a` and `b`. The list built at line 304 holds only the first key, and line 326's `trim` is not applied. So it comes back as `a => [b => b.text]`, the key `b` followed by the text: `c` is lost and `b` is left at the front of the text.
- **Several responses per file.** A file with more than 30 pending entries is sent in several requests. Line 284 merges each response with the target file as it was loaded at the start, and line 292 writes the result over the file. So each write holds only its own chunk's new keys, and the last write wins.
- **Repeated placeholders.** A placeholder that occurs twice is wrapped twice over. A placeholder that is a prefix of a later one splits the longer one.
- **Falsy values.** An existing translation whose value is `""` or `"0"` is sent again, but the merge then puts the old value back.
- **Letter case.** `checkSettings` compares the source with each target as written, so a source `de` with a target `DE` passes.

## Model

| member | source | states |
|---|---|---|
| Guard.WordLen | src/Commands/DeeplTranslator.php:251 | the length of the longest run of word characters at the front of a string: every character in the run is a word character, and the first one after it is not |
| Guard.Placeholders | src/Commands/DeeplTranslator.php:251-252 | every match `preg_match_all('~(:\w+)~')` returns is a colon followed by at least one word character |
| Guard.PlaceholdersMaximal | src/Commands/DeeplTranslator.php:251-252 | every match occurs in the text, and the character after it is not a word character (or the text ends there): each run of word characters is taken whole |
| Guard.PlaceholdersEmpty | src/Commands/DeeplTranslator.php:252 | there are no matches exactly when the text has no colon followed by a word character (the `else` branch) |
| Guard.AddIgnoreTagToVariables | src/Commands/DeeplTranslator.php:248-260 | the loop's result is the fold of `str_replace(word, <ignore>word</ignore>)` over the matches; a text with no placeholder is returned unchanged; for a text with no angle brackets, deleting the `<ignore>`/`</ignore>` markers gives back the original text |
| Guard.GuardedUnwraps | src/Commands/DeeplTranslator.php:254 | for text without angle brackets, the guarded text minus the markers is the text: the guard only adds markers |
| Guard.DuplicateWrappedTwice | src/Commands/DeeplTranslator.php:253-255 | a placeholder written twice is matched twice, and each occurrence ends up wrapped in two pairs of markers |
| Guard.PrefixPlaceholderSplits | src/Commands/DeeplTranslator.php:253-255 | for `:name :namec`, both are matched; wrapping `:name` first also wraps the front of `:namec`, whose last character is left outside the markers |
| Guard.TransformNode | src/Commands/DeeplTranslator.php:239-243 | a leaf stays a leaf and an array stays an array with the same keys in the same order |
| Guard.Transform | src/Commands/DeeplTranslator.php:236-246 | the result has the same keys, order and nesting as the input |
| Guard.TransformLeaves | src/Commands/DeeplTranslator.php:236-246 | the leaves of the result, listed with their key paths, are the leaves of the input with each text guarded |
| Encoder.TagLeaf | src/Commands/DeeplTranslator.php:220-226 | the string for a leaf: the file-name marker, then one index marker per accumulated key, in order, then the text |
| Encoder.TaggedOwnKey | src/Commands/DeeplTranslator.php:227-228 | at top level (no accumulated keys) the leaf is tagged with its own key, exactly as the `else` branch writes it |
| Encoder.AppendAll | src/Commands/DeeplTranslator.php:215-217 | appending the flattened inner result keeps the earlier strings and adds the inner ones in order |
| Encoder.AddIgnoreToTextForDeepL | src/Commands/DeeplTranslator.php:210-234 | the output is the incoming `$texts` followed by one tagged string per record of the array, under the keys accumulated so far |
| Encoder.RecordsFollowLeaves | src/Commands/DeeplTranslator.php:210-234 | the encoder emits exactly one string per leaf, with the leaves' texts in depth-first order |
| Encoder.RecordsTagged | src/Commands/DeeplTranslator.php:213-229 | every emitted string carries at least one index key, and below a nested array its keys begin with the keys accumulated above it |
| Encoder.FlatRecords | src/Commands/DeeplTranslator.php:227-228 | for an array with no nested arrays, the i-th string is tagged with the i-th key alone and carries the i-th text |
| Encoder.SiblingInheritsBranchKey | src/Commands/DeeplTranslator.php:213-214 | `$indexes` is never popped: in `[a => [x => t1], b => t2]` both strings are tagged `[a]`, so `b` is never written |
| Encoder.NestedKeyDropped | src/Commands/DeeplTranslator.php:220-225 | a leaf one level down is tagged with its array's key only, never with its own key |
| Encoder.TwoLevelKeys | src/Commands/DeeplTranslator.php:213-225 | a leaf two levels down is tagged with the keys of both arrays above it, never with its own key |
| Encoder.EncodeConcat | src/Commands/DeeplTranslator.php:215-217 | encoding distributes over concatenation of records, as the appending loop does |
| Tags.InTags | src/Commands/DeeplTranslator.php:333-338 | each capture stands in the string right after a `<tag>` and right before a `</tag>`, and no `</tag>` starts inside it: the capture is lazy |
| Tags.BetweenEnclosed | src/Commands/DeeplTranslator.php:336 | every capture of the left-to-right scan from any position is enclosed by the markers in that way |
| Tags.NextEnclosed | src/Commands/DeeplTranslator.php:336 | a single match captures the text between an opening marker and the first closing marker after it |
| Tags.InTagsFront | src/Commands/DeeplTranslator.php:333-338 | the first `<tag>…</tag>` match is the content between the first opening marker and the next closing one, and the search then resumes after it |
| Tags.InTagsAbsent | src/Commands/DeeplTranslator.php:333-338 | with no opening marker in the string there is no match |
| Tags.InTagsSingle | src/Commands/DeeplTranslator.php:333-338 | a string that is just `<tag>c</tag>` yields exactly `[c]` |
| Tags.BetweenShift | src/Commands/DeeplTranslator.php:336 | matching from a position of a string gives the matches of the suffix from that position |
| Decoder.HandleTranslatedTexts | src/Commands/DeeplTranslator.php:296-331 | the command fails (`None`) exactly when some text lacks a file-name or an index marker pair (the `[0]` reads of lines 300 and 302) or there is no text (line 330 reads an unset `$filename`); otherwise the result is `[filename => array]`, where the file name is that of the last string and the array is the fold of the per-string decode `DecodeOne` over all strings |
| Decoder.DecodeText | src/Commands/DeeplTranslator.php:299-328 | one pass of the loop fails (`None`) exactly when the string lacks a file-name or an index marker pair; otherwise it reads the string's file name and updates the array as `DecodeOne` does |
| Decoder.TopLevelReadable | src/Commands/DeeplTranslator.php:300-302 | the encoder's string for a top-level leaf holds both marker pairs, so the reads of lines 300 and 302 succeed |
| Decoder.NestUnder | src/Commands/DeeplTranslator.php:323 | the loop builds the text nested under the keys, the first key outermost |
| Decoder.DecodeNestedReplaces | src/Commands/DeeplTranslator.php:321-324 | `DecodeOne`: with more than one index key, the first key's entry is replaced wholesale by the stripped text nested under the other keys; every other key is untouched |
| Decoder.DecodeFlatStores | src/Commands/DeeplTranslator.php:325-327 | `DecodeOne`: with at most one index key, the trimmed stripped text is stored at the first key, and every other key is untouched; with no index key the text is not readable, so the command fails at line 302 before this store |
| Decoder.FilenameBack | src/Commands/DeeplTranslator.php:300 | in an encoder-shaped string, the file-name extractor finds exactly the file name |
| Decoder.DecodeFilename | src/Commands/DeeplTranslator.php:300 | the decoder reads back the file name the encoder wrote |
| Decoder.IndexKeysBack | src/Commands/DeeplTranslator.php:301-302 | the index extractor returns the encoder's key first, followed by whatever markers the text itself holds |
| Decoder.StripInOrder | src/Commands/DeeplTranslator.php:304-319 | `str_replace` with the list deletes the file name, then the first key, then each marker literal, in the list's order |
| Decoder.StripBack | src/Commands/DeeplTranslator.php:304-319 | under `Isolated` (no angle brackets in the file name or key; the file name not in the opening file marker or anything after it; the key not in the markers around it or the text), stripping an encoder-shaped string leaves the text's characters without its markers |
| Decoder.TopLevelKeys | src/Commands/DeeplTranslator.php:300-302 | a top-level leaf's string is read back with its file name and exactly its one key |
| Decoder.TopLevelStrip | src/Commands/DeeplTranslator.php:304-319 | stripping a top-level leaf's guarded, encoded string gives back the text before guarding |
| Decoder.TopLevelRoundTrip | src/Commands/DeeplTranslator.php:296-331 | decoding the encoder's string for `k => text` reads file name `f` and stores `trim(text)` at `k` |
| Decoder.OneLeafPipeline | src/Commands/DeeplTranslator.php:210-331 | guard, encode, then decode of a one-entry file succeeds and gives `[k => trim(text)]` under its file name |
| Decoder.NestedLeafFlattened | src/Commands/DeeplTranslator.php:210-331 | a file holding `a => [b => text]` is encoded as one string tagged only `a` and comes back as `a => trim(text)`: the nesting is lost |
| Decoder.TwoLevelKeysBack | src/Commands/DeeplTranslator.php:300-302 | a leaf two levels down is read back with its file name and both array keys |
| Decoder.TwoLevelStrip | src/Commands/DeeplTranslator.php:304-319 | stripping that string deletes the first key only: the second key stays in front of the text |
| Decoder.TwoLevelLeafKeepsKeyText | src/Commands/DeeplTranslator.php:210-331 | a file holding `a => [b => [c => text]]` is encoded as one string tagged `a`, `b` and comes back as `a => [b => b.text]`, untrimmed: the leaf key is lost and the second key is left in the text |
| Markup.PlainRoundTrip | src/Commands/DeeplTranslator.php:319 | proof support for the stripping of line 319, in the token view of marked-up strings: a string with no markers, viewed as tokens, renders back to itself |
| Markup.RemoveTagsRender | src/Commands/DeeplTranslator.php:319 | proof support for the stripping of line 319: deleting marker literals from a rendered string equals rendering with those markers removed |
| Markup.StripMarkers | src/Commands/DeeplTranslator.php:319 | proof support for the stripping of line 319: when every marker present is on the list, deleting the list's literals leaves exactly the characters of the text |
| Markup.NoTagNoOccur | src/Commands/DeeplTranslator.php:300-302 | proof support for the reads of lines 300-302: a marker that the token list does not contain does not occur in its rendering, so the extractor cannot find it there |
| Markup.GuardTokRender | src/Commands/DeeplTranslator.php:254 | proof support for the guard of line 254: one `str_replace` of a placeholder in a rendered token list acts token by token, wrapping each match in plain text and never cutting a marker |
| PhpString.FindFromFirst | src/Commands/DeeplTranslator.php:336 | a search from a position finds the first occurrence at or after it: the string is there, and it starts nowhere in between |
| PhpString.FindSound | src/Commands/DeeplTranslator.php:336 | a found position holds the search string, and nothing is found exactly when it does not occur |
| PhpString.ReplaceAllAbsent | src/Commands/DeeplTranslator.php:319 | `str_replace` of a string that does not occur changes nothing |
| PhpString.RemoveAllShorter | src/Commands/DeeplTranslator.php:319 | deleting a string never lengthens the text, and strictly shortens it when the string occurs |
| PhpString.TrimIsInfix | src/Commands/DeeplTranslator.php:326 | `trim` returns a slice of its input, removes only whitespace from both ends, and leaves none at either end |
| PhpArray.PutGet | src/Commands/DeeplTranslator.php:326 | after `$a[$k] = $v`, `$a[$k]` is `$v` and every other key reads as before |
| PhpArray.PutPlace | src/Commands/DeeplTranslator.php:326 | assigning an existing key keeps the key order; a new key is appended at the end |
| PhpArray.PutDistinct | src/Commands/DeeplTranslator.php:326 | assignment keeps the keys distinct |
| PhpArray.ArrayMergeGet | src/Commands/DeeplTranslator.php:284 | in `array_merge($a, $b)` each key of `$b` takes `$b`'s value, and the others keep `$a`'s |
| PhpArray.ArrayMergeKeepsOrder | src/Commands/DeeplTranslator.php:284 | the keys of `$a` come first, in their order |
| PhpArray.LeafPathsStartAtTop | src/Commands/DeeplTranslator.php:236-246 | every leaf path is non-empty and begins with a top-level key |
| PhpArray.FlatLeaves | src/Commands/DeeplTranslator.php:236-246 | in an array without nested arrays, the leaves are the entries, each under its own key |
| Handle.FileGet | src/Commands/DeeplTranslator.php:145 | `$this->currentlyTranslated[$filename]` is a stored file when found, and no file has that name when not |
| Handle.FilterUntranslated | src/Commands/DeeplTranslator.php:144-147 | the loop keeps, in order, exactly the entries whose key has no truthy value in the target file |
| Handle.RemainingMember | src/Commands/DeeplTranslator.php:145-146 | an entry is kept if and only if it is in the source array and its key is not already translated |
| Handle.RemainingConcat | src/Commands/DeeplTranslator.php:144-147 | filtering distributes over concatenation |
| Handle.RemainingFresh | src/Commands/DeeplTranslator.php:145 | with no target file yet, every entry is kept |
| Handle.TransformDistinct | src/Commands/DeeplTranslator.php:141 | guarding keeps the keys distinct |
| Handle.CollectPending | src/Commands/DeeplTranslator.php:139-156 | the loop builds, in file order, one pending file per source file that still has untranslated entries, holding those entries after guarding |
| Handle.PendingFiles | src/Commands/DeeplTranslator.php:139-156 | a pending file is present if and only if some source file has that name and a non-empty remainder equal to its translations |
| Handle.NothingPending | src/Commands/DeeplTranslator.php:149-161 | "Nothing to translate" is reached exactly when every file's remainder is empty |
| Handle.ChunksConcat | src/Commands/DeeplTranslator.php:168 | `chunk(30)` (`Chunks`) loses and reorders nothing: the chunks put together are the entries |
| Handle.ChunksSizes | src/Commands/DeeplTranslator.php:168 | every chunk is non-empty and at most 30 long, and all but the last are exactly 30 |
| Handle.BuildRequests | src/Commands/DeeplTranslator.php:165-191 | one request per chunk of each pending file, in order, its texts encoded from that chunk alone |
| Handle.FileRequestsTagged | src/Commands/DeeplTranslator.php:170-177 | in `FileRequests`, every request uses XML tag handling and the upper-cased languages, and every text begins with the file-name marker of its file |
| Handle.MergeKeepsExisting | src/Commands/DeeplTranslator.php:284 | after the merge `MergeExisting`, each key the target file already had keeps its old value; every other key takes the new one |
| Handle.MergeGetAll | src/Commands/DeeplTranslator.php:284 | the same for every key at once: when the target file's keys are distinct (as a PHP array's are), an existing key reads its old value and any other key the new one |
| Handle.Written | src/Commands/DeeplTranslator.php:283-292 | nothing is written exactly when decoding the response fails; otherwise the array goes to the file named by its last text; when the target file's keys are distinct, each key it had at the start keeps that value and every other key holds what this response decodes to |
| Handle.LaterResponseDropsEarlierKeys | src/Commands/DeeplTranslator.php:284 | two responses for the same file are written to the same file; a new key only the earlier one carried is in the earlier write and missing from the later one |
| Handle.FalsyExistingWins | src/Commands/DeeplTranslator.php:284 | a key whose existing value is `""` or `"0"` passes the filter of line 145 and is sent, yet the merge writes the old falsy value back |
| Handle.OneLeafWritten | src/Commands/DeeplTranslator.php:139-331 | end to end, a one-entry file with no target file yet is filtered through unchanged and written as `[k => trim(text)]` |
| Settings.ListedFromIn | src/Traits/DeepltranslatorTrait.php:9-43 | the recursive list search is exactly membership in `$possibleTranslationLanguages` |
| Settings.ArrayUniqueCount | src/Traits/DeepltranslatorTrait.php:112 | `count($to) === count(array_unique($to))` holds exactly when no target is repeated |
| Settings.CheckSettings | src/Traits/DeepltranslatorTrait.php:94-127 | returns true if and only if: URL and key are configured, the upper-cased source is on the list, no target repeats, and every target differs from the source and is on the list once upper-cased |
| Settings.SingleLikeList | src/Traits/DeepltranslatorTrait.php:104-106 | a single target string is treated exactly as a one-element array |
| Settings.DuplicateTargetRejected | src/Traits/DeepltranslatorTrait.php:112-114 | a repeated target is always rejected |
| Settings.SourceAsTargetRejected | src/Traits/DeepltranslatorTrait.php:116-119 | a target written like the source is always rejected |
| Settings.CaseOnlyTargetAccepted | src/Traits/DeepltranslatorTrait.php:116-123 | the comparison is case-sensitive: from `de` to `DE` is accepted once URL and key are configured |
| Settings.EmptyTargetsAccepted | src/Traits/DeepltranslatorTrait.php:116-126 | an empty target array passes once the configuration and source language do |

## Left out

- Files and output: reading the language directory, `include` of PHP files, `mkdir`, `file_put_contents`, `var_export` and `json_encode` are not modelled. Neither are the pre-flight checks and prompts of `handle` before line 139, nor console output and logging. The model starts from the arrays those steps produce and ends at the array that would be written.
- HTTP: the Guzzle client, the concurrent request pool, request headers with the API key, and the JSON decoding of DeepL's response (`handleResponse` before line 279) are not modelled. The decoder takes the returned texts as a list of strings, and the end-to-end lemmas assume that DeepL returns each text as sent.
- Configuration: `config(...)` values are parameters (a `Config` record, and `Option<string>` for the URL and API key). Non-string configuration values are not modelled.
- The `--json` option is not modelled. With it, the source files are read with `json_decode` (src/Commands/DeeplTranslator.php:127-133) and the result is written with `json_encode`. An existing target file is still loaded with `include` at line 124. For a JSON target file, that `include` yields `1` rather than an array. So the lookup of line 145 finds no existing value and every entry is sent again, and the `array_merge` of line 284 fails on the non-array, so nothing is written. The model takes the existing target files as arrays.
- `translateString` (src/Traits/DeepltranslatorTrait.php:45-92) returns `false` when `checkSettings` fails. Otherwise it sends one request per target language, each with the single text, and returns the first translation of each response under its target. The HTTP calls are not modelled, so neither is this method; only the `checkSettings` it calls is.
- Decoder.HandleTranslatedTexts, Decoder.DecodeText: a failed read of line 300 or 302, or the unset `$filename` of line 330, is modelled as `None`. The exception it raises, and how the request pool and the console report it, are not modelled.
- Tags.InTags: models `#<tag>(.*?)</tag>#s` for the exact marker literals the encoder writes. It does not model the regex's optional whitespace after `<`, attributes, or the `\b` word boundary.
- Guard.Placeholders: `\w` is modelled as ASCII letters, digits and `_`. Locale-dependent word characters are not modelled.
- Array keys are non-numeric strings. PHP's renumbering of integer keys in `array_merge`, and its integer-string key casting, are not modelled.
- Leaves of translation arrays are strings. Other scalar leaves are not modelled.
- Settings.CheckSettings: `$from == $toLang` is modelled as exact string equality. PHP's loose comparison of two numeric strings (`"1" == "01"`) is not modelled; no language code on the list is numeric.
- Handle.ChunksSizes: states the sizes of the chunks, but not the closed-form number of chunks.

=== FILE: decoder.dfy ===
/**
 * The decoder (`handleTranslatedTexts`): each
 * returned string is read for its file name and index keys, stripped of
 * those and of a fixed list of marker literals, and stored back into one
 * keyed array.
 */
module Decoder {
  import opened PhpString
  import opened Markup
  import opened PhpArray
  import opened Encoder
  import opened Tags
  import opened Guard

  const FileTag: string := "ignore-filename"
  const IndexTag: string := "ignore-index"

  /**
   * `$xs[0]` on a list of strings. The command never reads `[0]` of an empty
   * capture list and goes on (`Readable` fails first), so the `""` given for
   * it here is only a filler that keeps the function total.
   */
  function First(xs: seq<string>): string {
    if xs == [] then "" else xs[0]
  }

  /**
   * The marker names whose `<name>` literals are deleted after the file name
   * and the first key, in order: `<ignore-index>`, `</ignore-index>`, …,
   * `<\/ignore>` (with its backslash), …, `</ignore>`.
   */
  const StrippedNames: seq<string> := [
    "ignore-index", "/ignore-index", "ignore-filename", "ignore-dex", "ignore-name",
    "/ignore-name", "/ignore-filename", "\\/ignore", "/ignore-dex", "ignore", "/ignore"
  ]

  const StrippedMarkers: seq<string> := TagTexts(StrippedNames)

  function FilenameOf(s: string): string {
    First(InTags(s, FileTag))
  }

  function IndexKeys(s: string): seq<string> {
    InTags(s, IndexTag)
  }

  /** `str_replace($toReplace, '', $s)` with the file name and first key searched first. */
  function Strip(s: string, f: string, k: string): string {
    ReplaceEach(s, [f, k] + StrippedMarkers, "")
  }

  function StrippedText(s: string): string {
    Strip(s, FilenameOf(s), First(IndexKeys(s)))
  }

  /**
   * One iteration of the loop: with more than one key the stripped text is
   * nested under all of them and merged in at the first key; otherwise the
   * trimmed text is stored at the first key.
   */
  function DecodeOne(acc: Entries, s: string): Entries {
    var keys := IndexKeys(s);
    var newText := StrippedText(s);
    if |keys| > 1 then ArrayMerge(acc, Nest(keys, newText).children)
    else Put(acc, First(keys), Leaf(Trim(newText)))
  }

  function DecodeUpTo(texts: seq<string>, n: nat): Entries
    requires n <= |texts|
  {
    if n == 0 then [] else DecodeOne(DecodeUpTo(texts, n - 1), texts[n - 1])
  }

  /**
   * Lines 300 and 302 read `[0]` of the file-name and of the index captures.
   * A text without either marker pair makes that read fail ("Undefined array
   * key 0"), which the console command's error handler raises as an
   * exception: nothing is decoded or written for that response.
   */
  predicate Readable(s: string) {
    InTags(s, FileTag) != [] && InTags(s, IndexTag) != []
  }

  /**
   * A response the command decodes in full: every text is readable, and there
   * is at least one, since line 330 reads `$filename`, which only the loop sets.
   */
  predicate AllReadable(texts: seq<string>) {
    texts != [] && ReadableUpTo(texts, |texts|)
  }

  /** The first `n` texts are readable. */
  predicate ReadableUpTo(texts: seq<string>, n: nat)
    requires n <= |texts|
  {
    n == 0 || (ReadableUpTo(texts, n - 1) && Readable(texts[n - 1]))
  }

  /** The file name read from the last string (`""` filler when there is none; see `AllReadable`). */
  function LastFilename(texts: seq<string>): string {
    if texts == [] then "" else FilenameOf(texts[|texts| - 1])
  }

  /**
   * `handleTranslatedTexts($translations)`, given the returned texts:
   * `[$filename => $resultArray]`, or `None` where the command fails (a text
   * without its markers, or no text at all).
   */
  method HandleTranslatedTexts(translations: seq<string>) returns (r: Option<Entries>)
    ensures r.None? <==> !AllReadable(translations)
    ensures r.Some? ==> r.value == [(LastFilename(translations), Branch(DecodeUpTo(translations, |translations|)))]
  {
    var resultArray: Entries := [];
    var filename: Option<string> := None;  // `$filename` is unset until the loop runs
    var i := 0;
    while i < |translations|
      invariant 0 <= i <= |translations|
      invariant ReadableUpTo(translations, i)
      invariant resultArray == DecodeUpTo(translations, i)
      invariant i == 0 ==> filename.None?
      invariant i > 0 ==> filename == Some(FilenameOf(translations[i - 1]))
    {
      var text := translations[i];
      var step := DecodeText(resultArray, text);
      if step.None? {
        UnreadableText(translations, i, |translations|);
        return None;
      }
      resultArray := step.value.0;
      filename := Some(step.value.1);
      i := i + 1;
    }
    if filename.None? {
      return None;
    }
    r := Some([(filename.value, Branch(resultArray))]);
  }

  /** One unreadable text among the first `n` makes them not all readable. */
  lemma {:induction false} UnreadableText(texts: seq<string>, i: nat, n: nat)
    requires i < n <= |texts| && !Readable(texts[i])
    ensures !ReadableUpTo(texts, n)
  {
    if i < n - 1 {
      UnreadableText(texts, i, n - 1);
    }
  }

  /**
   * One pass of the loop of lines 299-328: the array with `text` stored and the
   * file name read from `text`, or `None` where line 300 or 302 fails.
   */
  method DecodeText(resultArray: Entries, text: string) returns (r: Option<(Entries, string)>)
    ensures r.None? <==> !Readable(text)
    ensures r.Some? ==> r.value == (DecodeOne(resultArray, text), FilenameOf(text))
  {
    var files := InTags(text, FileTag);
    if files == [] {
      return None;
    }
    var filename := files[0];
    var index2 := InTags(text, IndexTag);
    if index2 == [] {
      return None;
    }
    var index := index2[0];
    var newText := ReplaceEach(text, [filename, index] + StrippedMarkers, "");
    var acc;
    if |index2| > 1 {
      var a := NestUnder(index2, newText);
      acc := ArrayMerge(resultArray, a.children);
    } else {
      acc := Put(resultArray, index, Leaf(Trim(newText)));
    }
    r := Some((acc, filename));
  }

  /** Line 323: the text wrapped in one single-key array per key, the last key innermost. */
  method NestUnder(keys: seq<string>, t: string) returns (a: Node)
    ensures a == Nest(keys, t)
  {
    a := Leaf(t);
    var j := |keys|;
    while j > 0
      invariant 0 <= j <= |keys|
      invariant a == Nest(keys[j..], t)
    {
      j := j - 1;
      assert keys[j..][1..] == keys[j + 1..];
      a := Branch([(keys[j], a)]);
    }
  }

  // ------------------------------------------------------- nested entries

  lemma ArrayMergeOne(a: Entries, k: string, v: Node)
    ensures ArrayMerge(a, [(k, v)]) == Put(a, k, v)
  {
    assert [(k, v)][1..] == [];
  }

  /**
   * With more than one key, the untrimmed stripped text is placed in the
   * chain of the remaining keys under the first one, replacing whatever the
   * array held there; every other key is left alone.
   */
  lemma DecodeNestedReplaces(acc: Entries, s: string, other: string)
    requires |IndexKeys(s)| > 1
    ensures Get(DecodeOne(acc, s), IndexKeys(s)[0]) == Some(Nest(IndexKeys(s)[1..], StrippedText(s)))
    ensures other != IndexKeys(s)[0] ==> Get(DecodeOne(acc, s), other) == Get(acc, other)
  {
    var keys := IndexKeys(s);
    var v := Nest(keys[1..], StrippedText(s));
    assert Nest(keys, StrippedText(s)).children == [(keys[0], v)];
    ArrayMergeOne(acc, keys[0], v);
    PutGet(acc, keys[0], v, other);
  }

  /**
   * With one key, the trimmed stripped text is stored at that key; with no
   * key the text is not readable, and the command fails at line 302 before
   * this store.
   */
  lemma DecodeFlatStores(acc: Entries, s: string, other: string)
    requires |IndexKeys(s)| <= 1
    ensures Get(DecodeOne(acc, s), First(IndexKeys(s))) == Some(Leaf(Trim(StrippedText(s))))
    ensures other != First(IndexKeys(s)) ==> Get(DecodeOne(acc, s), other) == Get(acc, other)
    ensures |IndexKeys(s)| == 0 ==> !Readable(s)
  {
    PutGet(acc, First(IndexKeys(s)), Leaf(Trim(StrippedText(s))), other);
  }

  // ------------------------------------------------------------ round trip

  lemma FileMarkerTexts()
    ensures OpenFile == TagText(FileTag) && CloseFile == TagText("/" + FileTag)
  {
  }

  lemma IndexMarkerTexts()
    ensures OpenIndex == TagText(IndexTag) && CloseIndex == TagText("/" + IndexTag)
  {
  }

  /** The markers that may follow the first key: further keys and guarded placeholders. */
  const KeyNames: set<string> := {"ignore-index", "/ignore-index", "ignore", "/ignore"}

  /** What the encoder writes for a leaf tagged with the single key `k` (line 228's string). */
  function OwnKeyText(f: string, k: string, rest: string): string {
    OpenFile + f + CloseFile + OpenIndex + k + CloseIndex + rest
  }

  lemma IndexTagsOk()
    ensures TokOk(Tag(IndexTag)) && TokOk(Tag("/" + IndexTag))
  {
    SlashOk(IndexTag);
  }

  /** The two marker names a text is tagged with, and the names that may follow the key. */
  predicate TagNamesOk(ft: string, it: string, names: set<string>) {
    && TokOk(Tag(ft)) && TokOk(Tag("/" + ft)) && TokOk(Tag(it)) && TokOk(Tag("/" + it))
    && it in names && "/" + it in names && ft !in names && "/" + ft !in names
  }

  lemma FileTagsOk()
    ensures TokOk(Tag(FileTag)) && TokOk(Tag("/" + FileTag))
  {
    SlashOk(FileTag);
  }

  lemma KeyNamesOk()
    ensures TagNamesOk(FileTag, IndexTag, KeyNames)
  {
    IndexTagsOk();
    FileTagsOk();
    assert "/" + IndexTag == "/ignore-index";
    assert |FileTag| == 15 && |"/" + FileTag| == 16;
  }

  /** The string of line 228, written with marker names `ft` and `it`. */
  function Layout(ft: string, it: string, f: string, k: string, rest: string): string {
    TagText(ft) + f + TagText("/" + ft) + TagText(it) + k + TagText("/" + it) + rest
  }

  lemma OwnKeyLayout(f: string, k: string, rest: string)
    ensures OwnKeyText(f, k, rest) == Layout(FileTag, IndexTag, f, k, rest)
  {
    FileMarkerTexts();
    IndexMarkerTexts();
  }

  /** Regrouping of a concatenation, kept out of line so that its callers' proofs see only this equation (the file-name search in `FilenameBack`). */
  lemma Regroup(a: string, b: string, c: string, d: string, e: string, g: string, h: string)
    ensures a + b + c + d + e + g + h == "" + a + b + c + (d + e + g + h)
    ensures a + b + c + d + e + g + h == "" + a + (b + c + (d + e + g + h))
  {
  }

  lemma FilenameBack(ft: string, it: string, names: set<string>, f: string, k: string, rts: seq<Tok>)
    requires TagNamesOk(ft, it, names)
    requires AngleFree(f) && AngleFree(k) && WellFormed(rts) && TagsWithin(rts, names)
    ensures InTags(Layout(ft, it, f, k, Render(rts)), ft) == [f]
  {
    var yts := Marked(it, k, "/" + it, rts);
    MarkedRender(it, k, "/" + it, rts);
    MarkedWellFormed(it, k, "/" + it, rts, names);
    NoTagNoOccur(yts, ft, names);
    var y := Render(yts);
    var s := Layout(ft, it, f, k, Render(rts));
    Regroup(TagText(ft), f, TagText("/" + ft), TagText(it), k, TagText("/" + it), Render(rts));
    assert s == "" + TagText(ft) + f + TagText("/" + ft) + y;
    FindAfter("", TagText(ft), f + TagText("/" + ft) + y);
    InTagsFront(s, ft, "", f, y);
    InTagsAbsent(y, ft);
  }

  /** The file name read back is the one the encoder wrote. */
  lemma DecodeFilename(f: string, k: string, rts: seq<Tok>)
    requires AngleFree(f) && AngleFree(k) && WellFormed(rts) && TagsWithin(rts, KeyNames)
    ensures FilenameOf(OwnKeyText(f, k, Render(rts))) == f
  {
    KeyNamesOk();
    OwnKeyLayout(f, k, Render(rts));
    FilenameBack(FileTag, IndexTag, KeyNames, f, k, rts);
  }

  /** The keys read back begin with the one the encoder wrote first. */
  lemma IndexKeysBack(ft: string, it: string, f: string, k: string, rest: string)
    requires TokOk(Tag(ft)) && TokOk(Tag("/" + ft)) && AngleFree(it) && it != ft && it != "/" + ft
    requires AngleFree(f) && AngleFree(k)
    ensures InTags(Layout(ft, it, f, k, rest), it) == [k] + InTags(rest, it)
  {
    var h := TagText(ft) + f + TagText("/" + ft);
    IndexMarkerFound(ft, it, f, k, rest);
    assert Layout(ft, it, f, k, rest) == h + TagText(it) + k + TagText("/" + it) + rest;
    InTagsFront(Layout(ft, it, f, k, rest), it, h, k, rest);
  }

  /** The first index marker comes right after the file name's closing marker. */
  lemma IndexMarkerFound(ft: string, it: string, f: string, k: string, rest: string)
    requires TokOk(Tag(ft)) && TokOk(Tag("/" + ft)) && AngleFree(it) && it != ft && it != "/" + ft
    requires AngleFree(f)
    ensures Find(Layout(ft, it, f, k, rest), TagText(it)) == Some(|TagText(ft) + f + TagText("/" + ft)|)
  {
    var z := TagText(it) + k + TagText("/" + it) + rest;
    LayoutSplit(ft, it, f, k, rest);
    FindPastMarked(ft, f, "/" + ft, z, it);
    FindAfter("", TagText(it), k + TagText("/" + it) + rest);
  }

  /** Regrouping of a concatenation, kept out of line so that its callers' proofs see only this equation (the index-marker search in `IndexMarkerFound`). */
  lemma LayoutSplit(ft: string, it: string, f: string, k: string, rest: string)
    ensures Layout(ft, it, f, k, rest)
         == TagText(ft) + f + TagText("/" + ft) + (TagText(it) + k + TagText("/" + it) + rest)
    ensures TagText(it) + k + TagText("/" + it) + rest == "" + TagText(it) + (k + TagText("/" + it) + rest)
  {
  }

  // ------------------------------------------------------------- stripping

  /**
   * The file name and the key occur in the tagged string only where the
   * encoder put them: not inside the markers around them, not in each
   * other and not in the text.
   */
  predicate Isolated(ft: string, it: string, f: string, k: string, g: string) {
    && AngleFree(f) && AngleFree(k)
    && !Occurs(f, TagText(ft))
    && !Occurs(f, TagText("/" + ft) + TagText(it) + k + TagText("/" + it) + g)
    && !Occurs(k, TagText(ft) + TagText("/" + ft) + TagText(it))
    && !Occurs(k, TagText("/" + it) + g)
  }

  /** Regrouping of a concatenation, kept out of line so that its callers' proofs see only this equation (the two deletions in `StripLayout`). */
  lemma Regroup4(a: string, f: string, b: string, c: string, k: string, d: string, g: string)
    ensures a + f + b + c + k + d + g == a + f + (b + c + k + d + g)
    ensures a + (b + c + k + d + g) == a + b + c + k + (d + g)
    ensures a + b + c + (d + g) == a + b + c + d + g
  {
  }

  /** Deleting the file name and then the key leaves the four markers around the text. */
  lemma StripLayout(ft: string, it: string, f: string, k: string, g: string)
    requires Isolated(ft, it, f, k, g)
    ensures ReplaceAll(ReplaceAll(Layout(ft, it, f, k, g), f, ""), k, "")
         == TagText(ft) + TagText("/" + ft) + TagText(it) + TagText("/" + it) + g
  {
    var a, b, c, d := TagText(ft), TagText("/" + ft), TagText(it), TagText("/" + it);
    Regroup4(a, f, b, c, k, d, g);
    assert a[|a| - 1] == '>' && '>' !in f;
    RemoveIsolated(a, f, b + c + k + d + g);
    var abc := a + b + c;
    assert abc[|abc| - 1] == '>' && '>' !in k;
    RemoveIsolated(abc, k, d + g);
  }

  /** `str_replace` with the list of line 304: the file name, the key, then the marker literals. */
  lemma StripInOrder(s: string, f: string, k: string)
    ensures Strip(s, f, k) == ReplaceEach(ReplaceAll(ReplaceAll(s, f, ""), k, ""), StrippedMarkers, "")
  {
    var l := [f, k] + StrippedMarkers;
    assert l[0] == f && l[1..][0] == k && l[1..][1..] == StrippedMarkers;
    var s1 := ReplaceAll(s, f, "");
    assert ReplaceEach(s, l, "") == ReplaceEach(s1, l[1..], "");
    assert ReplaceEach(s1, l[1..], "") == ReplaceEach(ReplaceAll(s1, k, ""), StrippedMarkers, "");
  }

  /** The marker names that the tagged text of a top-level leaf holds. */
  const LeafNames: set<string> := {"ignore-filename", "/ignore-filename", "ignore-index", "/ignore-index", "ignore", "/ignore"}

  lemma StrippedNamesOk()
    ensures forall i :: 0 <= i < |StrippedNames| ==> AngleFree(StrippedNames[i])
    ensures forall n :: n in LeafNames ==> n in StrippedNames
  {
    forall i | 0 <= i < |StrippedNames| ensures AngleFree(StrippedNames[i]) {
      NameAngleFree(StrippedNames[i]);
    }
    assert StrippedNames[0] == "ignore-index" && StrippedNames[1] == "/ignore-index";
    assert StrippedNames[2] == "ignore-filename" && StrippedNames[6] == "/ignore-filename";
    assert StrippedNames[9] == "ignore" && StrippedNames[10] == "/ignore";
  }

  /** The stripped names are made of letters, `-`, `/` and `\\` only. */
  lemma NameAngleFree(n: string)
    requires forall i :: 0 <= i < |n| ==> n[i] in "abcdefghijklmnopqrstuvwxyz-/\\"
    ensures AngleFree(n)
  {
  }

  /** The four markers around a text, as tokens. */
  function Frame(ft: string, it: string, rts: seq<Tok>): seq<Tok> {
    Marked(ft, "", "/" + ft, Marked(it, "", "/" + it, rts))
  }

  lemma FrameRender(ft: string, it: string, rts: seq<Tok>)
    ensures Render(Frame(ft, it, rts)) == TagText(ft) + TagText("/" + ft) + TagText(it) + TagText("/" + it) + Render(rts)
  {
    var inner := Marked(it, "", "/" + it, rts);
    MarkedRender(it, "", "/" + it, rts);
    MarkedRender(ft, "", "/" + ft, inner);
    DropEmpties(TagText(ft), TagText("/" + ft), TagText(it), TagText("/" + it), Render(rts));
  }

  /** Regrouping of a concatenation, kept out of line so that its callers' proofs see only this equation (the rendering of the four empty marker pairs in `FrameRender`). */
  lemma DropEmpties(a: string, b: string, c: string, d: string, g: string)
    ensures a + "" + b + (c + "" + d + g) == a + b + c + d + g
  {
    assert a + "" == a && c + "" == c;
  }

  lemma FrameChars(ft: string, it: string, rts: seq<Tok>)
    ensures Chars(Frame(ft, it, rts)) == Chars(rts)
  {
    MarkedChars(it, "", "/" + it, rts);
    MarkedChars(ft, "", "/" + ft, Marked(it, "", "/" + it, rts));
    assert "" + ("" + Chars(rts)) == Chars(rts);
  }

  lemma FrameWellFormed(ft: string, it: string, rts: seq<Tok>, present: set<string>)
    requires TokOk(Tag(ft)) && TokOk(Tag("/" + ft)) && TokOk(Tag(it)) && TokOk(Tag("/" + it))
    requires ft in present && "/" + ft in present && it in present && "/" + it in present
    requires WellFormed(rts) && TagsWithin(rts, present)
    ensures WellFormed(Frame(ft, it, rts)) && TagsWithin(Frame(ft, it, rts), present)
  {
    MarkedWellFormed(it, "", "/" + it, rts, present);
    MarkedWellFormed(ft, "", "/" + ft, Marked(it, "", "/" + it, rts), present);
  }

  /** Deleting the file name, the key and then every marker literal gives back the characters of the text. */
  lemma StripBack(ft: string, it: string, f: string, k: string, rts: seq<Tok>, names: seq<string>, present: set<string>)
    requires Isolated(ft, it, f, k, Render(rts))
    requires TokOk(Tag(ft)) && TokOk(Tag("/" + ft)) && TokOk(Tag(it)) && TokOk(Tag("/" + it))
    requires ft in present && "/" + ft in present && it in present && "/" + it in present
    requires WellFormed(rts) && TagsWithin(rts, present)
    requires forall i :: 0 <= i < |names| ==> AngleFree(names[i])
    requires forall n :: n in present ==> n in names
    ensures ReplaceEach(ReplaceAll(ReplaceAll(Layout(ft, it, f, k, Render(rts)), f, ""), k, ""), TagTexts(names), "")
         == Chars(rts)
  {
    StripLayout(ft, it, f, k, Render(rts));
    FrameRender(ft, it, rts);
    FrameChars(ft, it, rts);
    FrameWellFormed(ft, it, rts, present);
    StripMarkers(Frame(ft, it, rts), names, present);
  }

  // ------------------------------------------------- a top-level leaf, end to end

  lemma LeafNamesHold()
    ensures FileTag in LeafNames && "/" + FileTag in LeafNames
    ensures IndexTag in LeafNames && "/" + IndexTag in LeafNames
    ensures "ignore" in LeafNames && "/ignore" in LeafNames
    ensures IndexTag != FileTag && IndexTag != "/" + FileTag
    ensures IndexTag !in {"ignore", "/ignore"}
  {
    assert "/" + FileTag == "/ignore-filename";
    assert "/" + IndexTag == "/ignore-index";
    assert |IndexTag| == 12 && |FileTag| == 15;
  }

  /** The text of a top-level leaf, once guarded, as tokens whose markers are all known. */
  lemma GuardedTokens(text: string)
    requires AngleFree(text)
    ensures Guarded(text) == Render(GuardedTok(text)) && Chars(GuardedTok(text)) == text
    ensures WellFormed(GuardedTok(text))
    ensures TagsWithin(GuardedTok(text), KeyNames) && TagsWithin(GuardedTok(text), LeafNames)
    ensures TagsWithin(GuardedTok(text), {"ignore", "/ignore"})
  {
    GuardedRender(text);
    LeafNamesHold();
  }

  /** The file name and the single key of a top-level leaf are read back. */
  lemma TopLevelKeys(f: string, k: string, text: string)
    requires AngleFree(text) && Isolated(FileTag, IndexTag, f, k, Guarded(text))
    ensures FilenameOf(Tagged(f, [k], Guarded(text))) == f
    ensures IndexKeys(Tagged(f, [k], Guarded(text))) == [k]
  {
    var g, rts := Guarded(text), GuardedTok(text);
    GuardedTokens(text);
    TaggedOwnKey(f, k, g);
    OwnKeyLayout(f, k, g);
    KeyNamesOk();
    LeafNamesHold();
    DecodeFilename(f, k, rts);
    IndexKeysBack(FileTag, IndexTag, f, k, g);
    NoTagNoOccur(rts, IndexTag, {"ignore", "/ignore"});
    InTagsAbsent(g, IndexTag);
    assert [k] + [] == [k];
  }

  /** Stripping the tagged string of a top-level leaf gives back the text before guarding. */
  lemma TopLevelStrip(f: string, k: string, text: string)
    requires AngleFree(text) && Isolated(FileTag, IndexTag, f, k, Guarded(text))
    ensures Strip(Tagged(f, [k], Guarded(text)), f, k) == text
  {
    var g, rts := Guarded(text), GuardedTok(text);
    GuardedTokens(text);
    TaggedOwnKey(f, k, g);
    OwnKeyLayout(f, k, g);
    KeyNamesOk();
    LeafNamesHold();
    StrippedNamesOk();
    StripInOrder(Tagged(f, [k], g), f, k);
    StripBack(FileTag, IndexTag, f, k, rts, StrippedNames, LeafNames);
  }

  /**
   * Round trip of a top-level leaf `k => text`: the string the encoder
   * builds from the guarded text is read back as file name `f`, and the
   * array gets `trim(text)` at `k`.
   */
  lemma TopLevelRoundTrip(acc: Entries, f: string, k: string, text: string)
    requires AngleFree(text) && Isolated(FileTag, IndexTag, f, k, Guarded(text))
    ensures FilenameOf(Tagged(f, [k], Guarded(text))) == f
    ensures DecodeOne(acc, Tagged(f, [k], Guarded(text))) == Put(acc, k, Leaf(Trim(text)))
  {
    TopLevelKeys(f, k, text);
    TopLevelStrip(f, k, text);
  }

  /**
   * A file holding the single entry `k => text`, guarded, encoded and
   * decoded again (with the texts returned as sent): `[f => [k => trim(text)]]`.
   */
  lemma OneLeafPipeline(f: string, k: string, text: string)
    requires AngleFree(text) && Isolated(FileTag, IndexTag, f, k, Guarded(text))
    ensures Encode(f, Records(Transform([(k, Leaf(text))]))) == [Tagged(f, [k], Guarded(text))]
    ensures AllReadable([Tagged(f, [k], Guarded(text))])
    ensures LastFilename([Tagged(f, [k], Guarded(text))]) == f
    ensures DecodeUpTo([Tagged(f, [k], Guarded(text))], 1) == [(k, Leaf(Trim(text)))]
  {
    var es := Transform([(k, Leaf(text))]);
    assert es == [(k, Leaf(Guarded(text)))];
    FlatRecords(es, 1);
    TopLevelRoundTrip([], f, k, text);
    assert AllReadable([Tagged(f, [k], Guarded(text))]) by {
      TopLevelReadable(f, k, text);
    }
  }

  /** The encoder's string for a top-level leaf passes the reads of lines 300 and 302. */
  lemma TopLevelReadable(f: string, k: string, text: string)
    requires AngleFree(text) && Isolated(FileTag, IndexTag, f, k, Guarded(text))
    ensures Readable(Tagged(f, [k], Guarded(text)))
  {
    TopLevelKeys(f, k, text);
    assert Occurs("", TagText(FileTag));
  }

  /**
   * A file holding `a => [b => text]` comes back as `a => trim(text)`: the
   * inner key is lost in encoding and the branch is replaced by a leaf.
   */
  lemma NestedLeafFlattened(f: string, a: string, b: string, text: string)
    requires AngleFree(text) && Isolated(FileTag, IndexTag, f, a, Guarded(text))
    ensures Encode(f, Records(Transform([(a, Branch([(b, Leaf(text))]))]))) == [Tagged(f, [a], Guarded(text))]
    ensures DecodeUpTo([Tagged(f, [a], Guarded(text))], 1) == [(a, Leaf(Trim(text)))]
  {
    var inner: Entries := [(b, Leaf(text))];
    assert Transform(inner) == [(b, Leaf(Guarded(text)))];
    assert TransformNode(Branch(inner)) == Branch([(b, Leaf(Guarded(text)))]);
    assert Transform([(a, Branch(inner))]) == [(a, Branch([(b, Leaf(Guarded(text)))]))];
    NestedKeyDropped(a, b, Guarded(text));
    TopLevelRoundTrip([], f, a, text);
  }

  // ------------------------------------------------- a leaf two levels down

  /** The string for a leaf tagged with two keys, written as line 228's layout around the second key's marker pair. */
  lemma TwoKeysLayout(f: string, a: string, b: string, g: string)
    ensures Tagged(f, [a, b], g) == Layout(FileTag, IndexTag, f, a, OpenIndex + b + CloseIndex + g)
  {
    assert [a, b][..1] == [a];
    IndexMarkersOne(a);
    FileMarkerTexts();
    IndexMarkerTexts();
  }

  /** The second key's marker pair followed by the guarded text, as tokens. */
  function SecondKey(b: string, text: string): seq<Tok> {
    Marked(IndexTag, b, "/" + IndexTag, GuardedTok(text))
  }

  lemma SecondKeyTokens(b: string, text: string)
    requires AngleFree(text) && AngleFree(b)
    ensures Render(SecondKey(b, text)) == OpenIndex + b + CloseIndex + Guarded(text)
    ensures Chars(SecondKey(b, text)) == b + text
    ensures WellFormed(SecondKey(b, text))
    ensures TagsWithin(SecondKey(b, text), KeyNames) && TagsWithin(SecondKey(b, text), LeafNames)
  {
    GuardedTokens(text);
    LeafNamesHold();
    IndexTagsOk();
    IndexMarkerTexts();
    var gts := GuardedTok(text);
    MarkedRender(IndexTag, b, "/" + IndexTag, gts);
    MarkedChars(IndexTag, b, "/" + IndexTag, gts);
    MarkedWellFormed(IndexTag, b, "/" + IndexTag, gts, KeyNames);
    MarkedWellFormed(IndexTag, b, "/" + IndexTag, gts, LeafNames);
  }

  /** A second index marker pair right at the front is read as the next key. */
  lemma SecondKeyRead(b: string, g: string)
    requires AngleFree(b)
    ensures InTags(OpenIndex + b + CloseIndex + g, IndexTag) == [b] + InTags(g, IndexTag)
  {
    IndexMarkerTexts();
    var rest := OpenIndex + b + CloseIndex + g;
    assert rest == "" + OpenIndex + (b + CloseIndex + g);
    FindAfter("", OpenIndex, b + CloseIndex + g);
    InTagsFront(rest, IndexTag, "", b, g);
  }

  /** Guarded text holds no index marker, so no key is read from it. */
  lemma GuardedNoKeys(text: string)
    requires AngleFree(text)
    ensures InTags(Guarded(text), IndexTag) == []
  {
    GuardedTokens(text);
    LeafNamesHold();
    NoTagNoOccur(GuardedTok(text), IndexTag, {"ignore", "/ignore"});
    InTagsAbsent(Guarded(text), IndexTag);
  }

  /** Both keys of a leaf two levels down are read back, with the file name. */
  lemma TwoLevelKeysBack(f: string, a: string, b: string, text: string)
    requires AngleFree(text) && AngleFree(b)
    requires Isolated(FileTag, IndexTag, f, a, OpenIndex + b + CloseIndex + Guarded(text))
    ensures FilenameOf(Tagged(f, [a, b], Guarded(text))) == f
    ensures IndexKeys(Tagged(f, [a, b], Guarded(text))) == [a, b]
  {
    var g, rts := Guarded(text), SecondKey(b, text);
    var rest := OpenIndex + b + CloseIndex + g;
    SecondKeyTokens(b, text);
    TwoKeysLayout(f, a, b, g);
    KeyNamesOk();
    LeafNamesHold();
    FilenameBack(FileTag, IndexTag, KeyNames, f, a, rts);
    IndexKeysBack(FileTag, IndexTag, f, a, rest);
    SecondKeyRead(b, g);
    GuardedNoKeys(text);
    assert [a] + ([b] + []) == [a, b];
  }

  /** Only the file name and the first key are deleted: the second key stays in the text. */
  lemma TwoLevelStrip(f: string, a: string, b: string, text: string)
    requires AngleFree(text) && AngleFree(b)
    requires Isolated(FileTag, IndexTag, f, a, OpenIndex + b + CloseIndex + Guarded(text))
    ensures Strip(Tagged(f, [a, b], Guarded(text)), f, a) == b + text
  {
    var g, rts := Guarded(text), SecondKey(b, text);
    SecondKeyTokens(b, text);
    TwoKeysLayout(f, a, b, g);
    KeyNamesOk();
    LeafNamesHold();
    StrippedNamesOk();
    StripInOrder(Tagged(f, [a, b], g), f, a);
    StripBack(FileTag, IndexTag, f, a, rts, StrippedNames, LeafNames);
  }

  /**
   * A file holding `a => [b => [c => text]]` comes back as
   * `a => [b => b . text]`: the two outer levels are rebuilt, the innermost
   * key is lost, the second key is left in front of the text and the text
   * is not trimmed.
   */
  lemma TwoLevelLeafKeepsKeyText(f: string, a: string, b: string, c: string, text: string)
    requires AngleFree(text) && AngleFree(b)
    requires Isolated(FileTag, IndexTag, f, a, OpenIndex + b + CloseIndex + Guarded(text))
    ensures Encode(f, Records(Transform([(a, Branch([(b, Branch([(c, Leaf(text))]))]))]))) == [Tagged(f, [a, b], Guarded(text))]
    ensures DecodeUpTo([Tagged(f, [a, b], Guarded(text))], 1) == [(a, Branch([(b, Leaf(b + text))]))]
  {
    TwoLevelTransform(a, b, c, text);
    TwoLevelKeys(a, b, c, Guarded(text));
    var s := Tagged(f, [a, b], Guarded(text));
    TwoLevelKeysBack(f, a, b, text);
    TwoLevelStrip(f, a, b, text);
    NestTwo(a, b, b + text);
    assert DecodeOne([], s) == ArrayMerge([], [(a, Branch([(b, Leaf(b + text))]))]);
  }

  lemma TwoLevelTransform(a: string, b: string, c: string, text: string)
    ensures Transform([(a, Branch([(b, Branch([(c, Leaf(text))]))]))])
         == [(a, Branch([(b, Branch([(c, Leaf(Guarded(text)))]))]))]
  {
    var inner: Entries := [(c, Leaf(text))];
    var mid: Entries := [(b, Branch(inner))];
    assert Transform(inner) == [(c, Leaf(Guarded(text)))];
    assert TransformNode(Branch(inner)) == Branch([(c, Leaf(Guarded(text)))]);
    assert Transform(mid) == [(b, Branch([(c, Leaf(Guarded(text)))]))];
    assert TransformNode(Branch(mid)) == Branch(Transform(mid));
  }

  lemma NestTwo(a: string, b: string, t: string)
    ensures Nest([a, b], t) == Branch([(a, Branch([(b, Leaf(t))]))])
  {
    assert [a, b][1..] == [b] && [b][1..] == [];
    assert Nest([b], t) == Branch([(b, Leaf(t))]);
  }
}

=== FILE: encoder.dfy ===
/**
 * The encoder (`addIgnoreToTextForDeepL`): every leaf of a translation
 * tree becomes one flat string that carries the file name and a list of
 * index keys as marker-wrapped prefixes, ahead of the leaf's text.
 *
 * The list of index keys is one accumulator per loop: entering a nested
 * array appends that array's key, and the key stays there for the rest of
 * the loop. A leaf is tagged with the accumulator when it is non-empty and
 * with its own key only when it is empty.
 */
module Encoder {
  import opened PhpString
  import opened PhpArray

  const OpenFile: string := "<ignore-filename>"
  const CloseFile: string := "</ignore-filename>"
  const OpenIndex: string := "<ignore-index>"
  const CloseIndex: string := "</ignore-index>"

  /** One `<ignore-index>k</ignore-index>` per key, in order. */
  function IndexMarkers(idx: seq<string>): string
    decreases |idx|
  {
    if idx == [] then "" else IndexMarkers(idx[..|idx| - 1]) + OpenIndex + idx[|idx| - 1] + CloseIndex
  }

  /** The string sent to DeepL for one leaf. */
  function Tagged(f: string, idx: seq<string>, text: string): string {
    OpenFile + f + CloseFile + IndexMarkers(idx) + text
  }

  /** The index keys written for one leaf, and the leaf's text. */
  type Record = (seq<string>, string)

  /** The keys of the nested arrays among the first `n` entries, in order. */
  function BranchKeys(es: Entries, n: nat): seq<string>
    requires n <= |es|
    decreases n
  {
    if n == 0 then [] else BranchKeys(es, n - 1) + (if es[n - 1].1.Branch? then [es[n - 1].0] else [])
  }

  /** The records of the first `n` entries, when the accumulator held `idx0` before the loop. */
  function RecordsUpTo(es: Entries, idx0: seq<string>, n: nat): seq<Record>
    requires n <= |es|
    decreases Branch(es), 0, n
  {
    if n == 0 then []
    else RecordsUpTo(es, idx0, n - 1) + EntryRecords(es[n - 1].0, es[n - 1].1, idx0 + BranchKeys(es, n - 1))
  }

  /** The records of one entry `k => v`, reached with the accumulator holding `idx`. */
  function EntryRecords(k: string, v: Node, idx: seq<string>): seq<Record>
    decreases v, 1
  {
    match v
    case Leaf(t) => [(if |idx| > 0 then idx else [k], t)]
    case Branch(cs) => RecordsUpTo(cs, idx + [k], |cs|)
  }

  function Records(es: Entries): seq<Record> {
    RecordsUpTo(es, [], |es|)
  }

  function Encode(f: string, rs: seq<Record>): seq<string> {
    seq(|rs|, i requires 0 <= i < |rs| => Tagged(f, rs[i].0, rs[i].1))
  }

  lemma EncodeConcat(f: string, a: seq<Record>, b: seq<Record>)
    ensures Encode(f, a + b) == Encode(f, a) + Encode(f, b)
  {
  }

  lemma IndexMarkersOne(k: string)
    ensures IndexMarkers([k]) == OpenIndex + k + CloseIndex
  {
    assert [k][..0] == [];
  }

  lemma TaggedOwnKey(f: string, k: string, text: string)
    ensures Tagged(f, [k], text) == OpenFile + f + CloseFile + OpenIndex + k + CloseIndex + text
  {
    IndexMarkersOne(k);
  }

  /** The file marker followed by one index marker per key, then the text. */
  method TagLeaf(filename: string, indexes: seq<string>, text: string) returns (t: string)
    ensures t == Tagged(filename, indexes, text)
  {
    t := OpenFile + filename + CloseFile;
    ghost var head := t;
    var j := 0;
    while j < |indexes|
      invariant 0 <= j <= |indexes|
      invariant t == head + IndexMarkers(indexes[..j])
    {
      var piece := OpenIndex + indexes[j] + CloseIndex;
      assert IndexMarkers(indexes[..j + 1]) == IndexMarkers(indexes[..j]) + piece by {
        assert indexes[..j + 1][..j] == indexes[..j];
      }
      t := t + piece;
      j := j + 1;
    }
    assert indexes[..j] == indexes;
    t := t + text;
  }

  /** `foreach ($result as $item) $texts[] = $item;` */
  method AppendAll(texts: seq<string>, result: seq<string>) returns (out: seq<string>)
    ensures out == texts + result
  {
    out := texts;
    var j := 0;
    while j < |result|
      invariant 0 <= j <= |result|
      invariant out == texts + result[..j]
    {
      assert result[..j + 1] == result[..j] + [result[j]];
      out := out + [result[j]];
      j := j + 1;
    }
    assert result[..j] == result;
  }

  /**
   * `addIgnoreToTextForDeepL($translations, $filename, $texts, $indexes)`:
   * appends to `texts` one tagged string per leaf of `translations`, in
   * iteration order, as the records with accumulator `indexes` prescribe.
   */
  method AddIgnoreToTextForDeepL(translations: Entries, filename: string, texts: seq<string>, indexes: seq<string>)
    returns (out: seq<string>)
    ensures out == texts + Encode(filename, RecordsUpTo(translations, indexes, |translations|))
    decreases Branch(translations)
  {
    out := texts;
    var idx := indexes;
    var i := 0;
    while i < |translations|
      invariant 0 <= i <= |translations|
      invariant idx == indexes + BranchKeys(translations, i)
      invariant out == texts + Encode(filename, RecordsUpTo(translations, indexes, i))
      decreases |translations| - i
    {
      var index := translations[i].0;
      ghost var before := RecordsUpTo(translations, indexes, i);
      ghost var entry := EntryRecords(index, translations[i].1, idx);
      assert RecordsUpTo(translations, indexes, i + 1) == before + entry;
      EncodeConcat(filename, before, entry);
      match translations[i].1 {
        case Branch(cs) =>
          idx := idx + [index];
          var result := AddIgnoreToTextForDeepL(cs, filename, [], idx);
          out := AppendAll(out, result);
        case Leaf(text) =>
          var t;
          if |idx| > 0 {
            t := TagLeaf(filename, idx, text);
          } else {
            TaggedOwnKey(filename, index, text);
            t := OpenFile + filename + CloseFile + OpenIndex + index + CloseIndex + text;
          }
          out := out + [t];
      }
      i := i + 1;
    }
  }

  // --------------------------------------------------------- what is emitted

  function Texts(rs: seq<(seq<string>, string)>): seq<string> {
    seq(|rs|, i requires 0 <= i < |rs| => rs[i].1)
  }

  lemma TextsConcat(a: seq<(seq<string>, string)>, b: seq<(seq<string>, string)>)
    ensures Texts(a + b) == Texts(a) + Texts(b)
  {
  }

  lemma TextsUnder(k: string, ls: seq<LeafPath>)
    ensures Texts(Under(k, ls)) == Texts(ls)
  {
  }

  /** Exactly one string per leaf, carrying the leaf texts in iteration order. */
  lemma {:induction false} RecordsFollowLeaves(es: Entries, idx0: seq<string>, n: nat)
    requires n <= |es|
    ensures Texts(RecordsUpTo(es, idx0, n)) == Texts(LeavesUpTo(es, n))
    decreases Branch(es), 0, n
  {
    if n > 0 {
      RecordsFollowLeaves(es, idx0, n - 1);
      var k, v := es[n - 1].0, es[n - 1].1;
      EntryRecordsFollowLeaves(k, v, idx0 + BranchKeys(es, n - 1));
      TextsConcat(RecordsUpTo(es, idx0, n - 1), EntryRecords(k, v, idx0 + BranchKeys(es, n - 1)));
      TextsConcat(LeavesUpTo(es, n - 1), EntryLeaves(k, v));
    }
  }

  lemma {:induction false} EntryRecordsFollowLeaves(k: string, v: Node, idx: seq<string>)
    ensures Texts(EntryRecords(k, v, idx)) == Texts(EntryLeaves(k, v))
    decreases v, 1
  {
    match v
    case Leaf(t) =>
    case Branch(cs) =>
      RecordsFollowLeaves(cs, idx + [k], |cs|);
      TextsUnder(k, LeavesUpTo(cs, |cs|));
  }

  /**
   * Every string carries at least one index key; below a nested array, the
   * keys begin with the accumulator the loop started from.
   */
  lemma {:induction false} RecordsTagged(es: Entries, idx0: seq<string>, n: nat)
    requires n <= |es|
    ensures forall i :: 0 <= i < |RecordsUpTo(es, idx0, n)| ==>
              var tags := RecordsUpTo(es, idx0, n)[i].0;
              |tags| > 0 && (|idx0| > 0 ==> |idx0| <= |tags| && tags[..|idx0|] == idx0)
    decreases Branch(es), 0, n
  {
    if n > 0 {
      RecordsTagged(es, idx0, n - 1);
      var k, v := es[n - 1].0, es[n - 1].1;
      var idx := idx0 + BranchKeys(es, n - 1);
      EntryRecordsTagged(k, v, idx);
      var prev, rs := RecordsUpTo(es, idx0, n - 1), RecordsUpTo(es, idx0, n);
      var last := EntryRecords(k, v, idx);
      forall i | 0 <= i < |rs|
        ensures |rs[i].0| > 0 && (|idx0| > 0 ==> |idx0| <= |rs[i].0| && rs[i].0[..|idx0|] == idx0)
      {
        if i < |prev| {
          assert rs[i] == prev[i];
        } else {
          assert rs[i] == last[i - |prev|];
          if |idx0| > 0 {
            assert idx[..|idx0|] == idx0;
            assert rs[i].0[..|idx0|] == rs[i].0[..|idx|][..|idx0|];
          }
        }
      }
    }
  }

  lemma {:induction false} EntryRecordsTagged(k: string, v: Node, idx: seq<string>)
    ensures forall i :: 0 <= i < |EntryRecords(k, v, idx)| ==>
              var tags := EntryRecords(k, v, idx)[i].0;
              |tags| > 0 && (|idx| > 0 ==> |idx| <= |tags| && tags[..|idx|] == idx)
    decreases v, 1
  {
    match v
    case Leaf(t) =>
    case Branch(cs) =>
      RecordsTagged(cs, idx + [k], |cs|);
      var rs := RecordsUpTo(cs, idx + [k], |cs|);
      forall i | 0 <= i < |rs| ensures |idx| > 0 ==> |idx| <= |rs[i].0| && rs[i].0[..|idx|] == idx {
        if |idx| > 0 {
          assert rs[i].0[..|idx|] == rs[i].0[..|idx + [k]|][..|idx|];
        }
      }
  }

  /** In a file without nested arrays every leaf is tagged with its own key alone. */
  lemma {:induction false} FlatRecords(es: Entries, n: nat)
    requires Flat(es) && n <= |es|
    ensures BranchKeys(es, n) == []
    ensures |RecordsUpTo(es, [], n)| == n
    ensures forall i :: 0 <= i < n ==> RecordsUpTo(es, [], n)[i] == ([es[i].0], es[i].1.text)
  {
    if n > 0 {
      FlatRecords(es, n - 1);
      assert [] + BranchKeys(es, n - 1) == [];
    }
  }

  /**
   * A nested array's key stays in the accumulator for the siblings after it:
   * in `[a => [x => t1], b => t2]` both leaves are tagged `[a]`, so the key
   * `b` of the second leaf and the key `x` of the nested one are never sent.
   */
  lemma SiblingInheritsBranchKey(a: string, x: string, b: string, t1: string, t2: string)
    ensures Records([(a, Branch([(x, Leaf(t1))])), (b, Leaf(t2))]) == [([a], t1), ([a], t2)]
  {
    var inner: Entries := [(x, Leaf(t1))];
    var es: Entries := [(a, Branch(inner)), (b, Leaf(t2))];
    assert BranchKeys(es, 0) == [];
    assert BranchKeys(es, 1) == [a];
    assert [a] + BranchKeys(inner, 0) == [a];
    assert EntryRecords(x, Leaf(t1), [a]) == [([a], t1)];
    assert RecordsUpTo(inner, [a], 1) == [] + [([a], t1)];
    var none: seq<string> := [];
    assert none + [a] == [a] && none + none == none;
    assert EntryRecords(a, Branch(inner), none) == RecordsUpTo(inner, [a], 1);
    assert RecordsUpTo(es, [], 1) == [] + [([a], t1)];
    assert EntryRecords(b, Leaf(t2), [] + [a]) == [([a], t2)];
  }

  /** A leaf one level down is tagged with the key of its branch only: its own key `b` is never emitted. */
  lemma NestedKeyDropped(a: string, b: string, t: string)
    ensures Records([(a, Branch([(b, Leaf(t))]))]) == [([a], t)]
  {
    var inner: Entries := [(b, Leaf(t))];
    var es: Entries := [(a, Branch(inner))];
    assert BranchKeys(es, 0) == [];
    assert [a] + BranchKeys(inner, 0) == [a];
    assert EntryRecords(b, Leaf(t), [a]) == [([a], t)];
    assert RecordsUpTo(inner, [a], 1) == [] + [([a], t)];
    var none: seq<string> := [];
    assert none + [a] == [a] && none + BranchKeys(es, 0) == none;
    assert EntryRecords(a, Branch(inner), none) == RecordsUpTo(inner, none + [a], |inner|);
    assert RecordsUpTo(es, none, 1) == [] + EntryRecords(a, Branch(inner), none);
  }

  /** A leaf two levels down is tagged with the keys of both arrays above it, and again not with its own. */
  lemma TwoLevelKeys(a: string, b: string, c: string, t: string)
    ensures Records([(a, Branch([(b, Branch([(c, Leaf(t))]))]))]) == [([a, b], t)]
  {
    var inner: Entries := [(c, Leaf(t))];
    var mid: Entries := [(b, Branch(inner))];
    var es: Entries := [(a, Branch(mid))];
    var none: seq<string> := [];
    assert BranchKeys(es, 0) == none && BranchKeys(mid, 0) == none && BranchKeys(inner, 0) == none;
    assert none + [a] == [a] && [a] + none == [a] && [a] + [b] == [a, b] && [a, b] + none == [a, b];
    assert EntryRecords(c, Leaf(t), [a, b]) == [([a, b], t)];
    assert RecordsUpTo(inner, [a, b], 1) == [] + [([a, b], t)];
    assert EntryRecords(b, Branch(inner), [a]) == RecordsUpTo(inner, [a] + [b], |inner|);
    assert RecordsUpTo(mid, [a], 1) == [] + EntryRecords(b, Branch(inner), [a] + BranchKeys(mid, 0));
    assert EntryRecords(a, Branch(mid), none) == RecordsUpTo(mid, none + [a], |mid|);
    assert RecordsUpTo(es, none, 1) == [] + EntryRecords(a, Branch(mid), none + BranchKeys(es, 0));
  }
}

=== FILE: guard.dfy ===
/**
 * The placeholder guard (`addIgnoreTagToVariables`) and the tree map that
 * applies it to every leaf of a translation file (`transformTranslation`).
 * Laravel placeholders such as `:name` are wrapped in `<ignore>` markers so
 * that DeepL leaves them untranslated.
 */
module Guard {
  import opened PhpString
  import opened Markup
  import opened PhpArray

  /** The length of the run of `\w` characters at the start of `s`. */
  function WordLen(s: string): (n: nat)
    ensures n <= |s|
    ensures forall i :: 0 <= i < n ==> IsWordChar(s[i])
    ensures n < |s| ==> !IsWordChar(s[n])
    decreases |s|
  {
    if |s| > 0 && IsWordChar(s[0]) then 1 + WordLen(s[1..]) else 0
  }

  /** What the pattern `:\w+` matches: a colon and at least one word character. */
  predicate IsPlaceholder(w: string) {
    |w| >= 2 && w[0] == ':' && forall i :: 1 <= i < |w| ==> IsWordChar(w[i])
  }

  /** Somewhere in `s` a colon is followed by a word character. */
  predicate HasPlaceholder(s: string) {
    exists i :: 0 <= i < |s| - 1 && s[i] == ':' && IsWordChar(s[i + 1])
  }

  /**
   * `preg_match_all('~(:\w+)~', $s)`, group 1: scanning left to right, each
   * colon followed by word characters matches together with the whole run
   * of them, and the scan resumes after the match.
   */
  function Placeholders(s: string): (ws: seq<string>)
    ensures forall i :: 0 <= i < |ws| ==> IsPlaceholder(ws[i])
    decreases |s|
  {
    if |s| < 2 then []
    else if s[0] == ':' && IsWordChar(s[1]) then
      var n := 1 + WordLen(s[1..]);
      [s[..n]] + Placeholders(s[n..])
    else Placeholders(s[1..])
  }

  /** `w` occurs in `s` at `p` and is not followed by a word character: a match cannot be extended. */
  predicate MaximalAt(s: string, w: string, p: nat) {
    p + |w| <= |s| && s[p..p + |w|] == w && (p + |w| < |s| ==> !IsWordChar(s[p + |w|]))
  }

  /** `w` is a match of the whole word run somewhere in `s`. */
  ghost predicate MatchedIn(s: string, w: string) {
    exists p: nat :: MaximalAt(s, w, p)
  }

  /** A match found in the suffix `s[d..]` is a match of `s`, `d` characters on. */
  lemma MaximalShift(s: string, d: nat, w: string, p: nat)
    requires d <= |s| && MaximalAt(s[d..], w, p)
    ensures MaximalAt(s, w, d + p)
  {
    assert s[d..][p..p + |w|] == s[d + p..d + p + |w|];
    if d + p + |w| < |s| {
      assert s[d..][p + |w|] == s[d + p + |w|];
    }
  }

  /** Every match occurs in the text and takes the whole run of word characters after its colon. */
  lemma {:induction false} PlaceholdersMaximal(s: string)
    ensures forall i :: 0 <= i < |Placeholders(s)| ==> MatchedIn(s, Placeholders(s)[i])
    decreases |s|
  {
    if |s| >= 2 {
      var ws := Placeholders(s);
      var d: nat := if s[0] == ':' && IsWordChar(s[1]) then 1 + WordLen(s[1..]) else 1;
      var t := s[d..];
      PlaceholdersMaximal(t);
      var ts := Placeholders(t);
      if s[0] == ':' && IsWordChar(s[1]) {
        assert ws == [s[..d]] + ts;
        assert MaximalAt(s, ws[0], 0) by {
          if d < |s| {
            assert s[d] == s[1..][d - 1];
          }
        }
      } else {
        assert ws == ts;
      }
      forall i | 0 <= i < |ws| ensures MatchedIn(s, ws[i]) {
        if ws == ts || i > 0 {
          var j := if ws == ts then i else i - 1;
          assert ws[i] == ts[j];
          var p: nat :| MaximalAt(t, ts[j], p);
          MaximalShift(s, d, ts[j], p);
        } else {
          assert MaximalAt(s, ws[i], 0);
        }
        assert MatchedIn(s, ws[i]);
      }
    } else {
      assert Placeholders(s) == [];
    }
  }

  /** The pattern matches nothing exactly when no colon is followed by a word character. */
  lemma {:induction false} PlaceholdersEmpty(s: string)
    ensures Placeholders(s) == [] <==> !HasPlaceholder(s)
    decreases |s|
  {
    if |s| >= 2 {
      if s[0] == ':' && IsWordChar(s[1]) {
        assert HasPlaceholder(s) by { assert s[0] == ':' && IsWordChar(s[0 + 1]); }
      } else {
        PlaceholdersEmpty(s[1..]);
        assert HasPlaceholder(s) <==> HasPlaceholder(s[1..]) by {
          if HasPlaceholder(s) {
            var i :| 0 <= i < |s| - 1 && s[i] == ':' && IsWordChar(s[i + 1]);
            assert i > 0;
            assert s[1..][i - 1] == ':' && IsWordChar(s[1..][i]);
          }
          if HasPlaceholder(s[1..]) {
            var i :| 0 <= i < |s[1..]| - 1 && s[1..][i] == ':' && IsWordChar(s[1..][i + 1]);
            assert s[i + 1] == ':' && IsWordChar(s[i + 2]);
          }
        }
      }
    } else {
      assert !HasPlaceholder(s);
    }
  }

  /** Wraps every occurrence of each word in turn, as the loop over the matches does. */
  function GuardFold(text: string, ws: seq<string>): string
    decreases |ws|
  {
    if ws == [] then text else GuardFold(ReplaceAll(text, ws[0], Wrap(ws[0])), ws[1..])
  }

  /** The result `addIgnoreTagToVariables` returns for `text`. */
  function Guarded(text: string): string {
    GuardFold(text, Placeholders(text))
  }

  /**
   * `addIgnoreTagToVariables`: every match of `:\w+` is wrapped in
   * `<ignore>…</ignore>` by one `str_replace` per match, in match order.
   * Text without a match is returned as it is; text without `<` or `>`
   * comes back when the two markers are deleted again.
   */
  method AddIgnoreTagToVariables(text: string) returns (r: string)
    ensures r == Guarded(text)
    ensures !HasPlaceholder(text) ==> r == text
    ensures AngleFree(text) ==> ReplaceEach(r, ["<ignore>", "</ignore>"], "") == text
  {
    var newtext := text;
    var matches := Placeholders(text);
    if |matches| > 0 {
      var i := 0;
      while i < |matches|
        invariant 0 <= i <= |matches|
        invariant GuardFold(newtext, matches[i..]) == Guarded(text)
      {
        assert matches[i..][1..] == matches[i + 1..];
        newtext := ReplaceAll(newtext, matches[i], Wrap(matches[i]));
        i := i + 1;
      }
      r := newtext;
    } else {
      r := text;
    }
    PlaceholdersEmpty(text);
    if AngleFree(text) {
      GuardedUnwraps(text);
    }
  }

  // ------------------------------------------------------------ token view

  function GuardTokFold(ts: seq<Tok>, ws: seq<string>): seq<Tok>
    requires forall i :: 0 <= i < |ws| ==> PlaceholderShaped(ws[i])
    decreases |ws|
  {
    if ws == [] then ts
    else
      assert PlaceholderShaped(ws[0]);
      GuardTokFold(GuardTok(ts, ws[0]), ws[1..])
  }

  lemma {:induction false} GuardFoldRender(ts: seq<Tok>, ws: seq<string>, names: set<string>)
    requires WellFormed(ts) && TagsWithin(ts, names)
    requires "ignore" in names && "/ignore" in names
    requires forall i :: 0 <= i < |ws| ==> PlaceholderShaped(ws[i])
    ensures GuardFold(Render(ts), ws) == Render(GuardTokFold(ts, ws))
    ensures WellFormed(GuardTokFold(ts, ws))
    ensures Chars(GuardTokFold(ts, ws)) == Chars(ts)
    ensures TagsWithin(GuardTokFold(ts, ws), names)
    decreases |ws|
  {
    if ws != [] {
      GuardTokRender(ts, ws[0], names);
      GuardFoldRender(GuardTok(ts, ws[0]), ws[1..], names);
    }
  }

  lemma PlaceholderIsShaped(w: string)
    requires IsPlaceholder(w)
    ensures PlaceholderShaped(w)
  {
    forall i | 0 <= i < |w| ensures w[i] != '<' && w[i] != '>' {
      if i > 0 { assert IsWordChar(w[i]); }
    }
  }

  /** The guarded text as tokens. */
  function GuardedTok(text: string): seq<Tok> {
    var ws := Placeholders(text);
    assert forall i :: 0 <= i < |ws| ==> PlaceholderShaped(ws[i]) by {
      forall i | 0 <= i < |ws| ensures PlaceholderShaped(ws[i]) {
        PlaceholderIsShaped(ws[i]);
      }
    }
    GuardTokFold(Plain(text), Placeholders(text))
  }

  /**
   * For text without `<` or `>` the guarded text is the rendering of well
   * formed tokens whose characters are the original text and whose only
   * markers are `ignore` and `/ignore`.
   */
  lemma GuardedRender(text: string)
    requires AngleFree(text)
    ensures Guarded(text) == Render(GuardedTok(text))
    ensures WellFormed(GuardedTok(text)) && Chars(GuardedTok(text)) == text
    ensures TagsWithin(GuardedTok(text), {"ignore", "/ignore"})
  {
    var ws := Placeholders(text);
    forall i | 0 <= i < |ws| ensures PlaceholderShaped(ws[i]) {
      PlaceholderIsShaped(ws[i]);
    }
    PlainRoundTrip(text);
    assert TagsWithin(Plain(text), {"ignore", "/ignore"});
    GuardFoldRender(Plain(text), ws, {"ignore", "/ignore"});
  }

  /** Deleting the two guard markers from guarded text gives back the text. */
  lemma GuardedUnwraps(text: string)
    requires AngleFree(text)
    ensures ReplaceEach(Guarded(text), ["<ignore>", "</ignore>"], "") == text
  {
    var gts := GuardedTok(text);
    var names := ["ignore", "/ignore"];
    GuardedRender(text);
    assert TagText("ignore") == "<ignore>" && TagText("/ignore") == "</ignore>";
    assert TagTexts(names) == ["<ignore>", "</ignore>"];
    RemoveTagsRender(gts, names);
    RemoveTagsLeavesChars(gts, names, {"ignore", "/ignore"});
    assert {"ignore", "/ignore"} - (set x | x in names) == {};
    RenderNoTags(RemoveTags(gts, names));
  }

  predicate IsWord(name: string) {
    |name| > 0 && forall i :: 0 <= i < |name| ==> IsWordChar(name[i])
  }

  /** The word run at the front of `u + y` is all of `u` when `y` does not continue it. */
  lemma {:induction false} WordLenRun(u: string, y: string)
    requires forall i :: 0 <= i < |u| ==> IsWordChar(u[i])
    requires |y| > 0 ==> !IsWordChar(y[0])
    ensures WordLen(u + y) == |u|
    decreases |u|
  {
    if |u| > 0 {
      assert (u + y)[1..] == u[1..] + y;
      WordLenRun(u[1..], y);
    } else {
      assert u + y == y;
    }
  }

  /** `w` followed by something that does not continue its word is matched whole. */
  lemma MatchAtFront(name: string, y: string)
    requires IsWord(name)
    requires |y| > 0 ==> !IsWordChar(y[0])
    ensures Placeholders(":" + name + y) == [":" + name] + Placeholders(y)
  {
    var s := ":" + name + y;
    assert s[1..] == name + y;
    WordLenRun(name, y);
    assert s[..1 + |name|] == ":" + name && s[1 + |name|..] == y;
  }

  /** A character that is not a colon starts no match. */
  lemma SkipOne(c: char, y: string)
    requires c != ':'
    ensures Placeholders([c] + y) == Placeholders(y)
  {
    assert ([c] + y)[1..] == y;
  }

  /** The guard markers contain no colon, so no placeholder match can start inside them. */
  lemma MarkersColonFree()
    ensures forall i :: 0 <= i < |"<ignore>"| ==> "<ignore>"[i] != ':'
    ensures forall i :: 0 <= i < |"</ignore>"| ==> "</ignore>"[i] != ':'
    ensures forall i :: 0 <= i < |"</ignore> <ignore>"| ==> "</ignore> <ignore>"[i] != ':'
  {
  }

  lemma TwoMatches(name: string)
    requires IsWord(name)
    ensures var w := ":" + name; Placeholders(w + " " + w) == [w, w]
  {
    var w := ":" + name;
    MatchAtFront(name, "");
    assert w + "" == w;
    SkipOne(' ', w);
    MatchAtFront(name, " " + w);
    assert w + " " + w == ":" + name + (" " + w);
  }

  /** Regrouping of a concatenation, kept out of line so that its callers' proofs see only this equation (`WrapTwoOnce` and `WrapPrefix`). */
  lemma DropEmpty(a: string, b: string, c: string)
    ensures "" + a + b + a + "" == a + b + a
    ensures "" + a + b + a + c == a + b + a + c
  {
  }

  lemma WrapTwoOnce(w: string, sep: string, x: string)
    requires |w| > 0 && forall i :: 0 <= i < |sep| ==> sep[i] != w[0]
    ensures ReplaceAll(w + sep + w, w, x) == x + sep + x
  {
    ReplaceTwoInFrame("", w, sep, "", x);
    DropEmpty(w, sep, "");
    DropEmpty(x, sep, "");
  }

  lemma WrapPairShape(w: string)
    ensures Wrap(w) + " " + Wrap(w) == "<ignore>" + w + "</ignore> <ignore>" + w + "</ignore>"
  {
  }

  lemma WrapTwoAgain(w: string)
    requires |w| > 0 && w[0] == ':'
    ensures ReplaceAll(Wrap(w) + " " + Wrap(w), w, Wrap(w)) == Wrap(Wrap(w)) + " " + Wrap(Wrap(w))
  {
    MarkersColonFree();
    ReplaceTwoInFrame("<ignore>", w, "</ignore> <ignore>", "</ignore>", Wrap(w));
    WrapPairShape(w);
    WrapPairShape(Wrap(w));
  }

  /** A placeholder that occurs twice is matched twice, and so wrapped twice over. */
  lemma DuplicateWrappedTwice(name: string)
    requires IsWord(name)
    ensures var w := ":" + name;
      && Placeholders(w + " " + w) == [w, w]
      && Guarded(w + " " + w) == Wrap(Wrap(w)) + " " + Wrap(Wrap(w))
  {
    var w := ":" + name;
    TwoMatches(name);
    WrapTwoOnce(w, " ", Wrap(w));
    WrapTwoAgain(w);
    GuardFoldTwo(w + " " + w, w, w);
  }

  lemma PrefixMatches(name: string, c: char)
    requires IsWord(name) && IsWordChar(c)
    ensures var w := ":" + name; Placeholders(w + " " + (w + [c])) == [w, w + [c]]
  {
    var w := ":" + name;
    var v := w + [c];
    assert IsWord(name + [c]);
    MatchAtFront(name + [c], "");
    assert v + "" == v && ":" + (name + [c]) == v;
    SkipOne(' ', v);
    MatchAtFront(name, " " + v);
    AssocThree(w, " ", v);
    assert Placeholders(w + " " + v) == [w] + [v];
  }

  lemma WrapPrefix(w: string, sep: string, c: char, x: string)
    requires |w| > 0 && c != w[0] && forall i :: 0 <= i < |sep| ==> sep[i] != w[0]
    ensures ReplaceAll(w + sep + w + [c], w, x) == x + sep + x + [c]
  {
    ReplaceTwoInFrame("", w, sep, [c], x);
    DropEmpty(w, sep, [c]);
    DropEmpty(x, sep, [c]);
  }

  /** `v`, which extends `w` by one character `c`, is not found where each copy of `w` is followed by something else. */
  lemma LongerNotFound(open: string, w: string, mid: string, close: string, c: char, rep: string)
    requires |w| > 0 && |mid| > 0 && |close| > 0 && mid[0] != c && close[0] != c && c != w[0]
    requires forall i :: 1 <= i < |w| ==> w[i] != w[0]
    requires forall i :: 0 <= i < |open| ==> open[i] != w[0]
    requires forall i :: 0 <= i < |mid| ==> mid[i] != w[0]
    requires forall i :: 0 <= i < |close| ==> close[i] != w[0]
    ensures var s := open + (w + (mid + (w + (close + [c]))));
      ReplaceAll(s, w + [c], rep) == s
  {
    var v := w + [c];
    var tail2 := close + [c];
    assert forall i :: 0 <= i < |tail2| ==> tail2[i] != v[0] by {
      forall i | 0 <= i < |tail2| ensures tail2[i] != v[0] {
        if i < |close| { assert tail2[i] == close[i]; } else { assert tail2[i] == c; }
      }
    }
    ReplaceAllSkip(tail2, "", v, rep);
    assert tail2 + "" == tail2;
    assert !StartsWith(w + tail2, v) by { assert (w + tail2)[|w|] == close[0] && v[|w|] == c; }
    SkipPastNearMiss(mid, w, tail2, v, rep);
    var t := mid + (w + tail2);
    assert !StartsWith(w + t, v) by { assert (w + t)[|w|] == mid[0] && v[|w|] == c; }
    SkipPastNearMiss(open, w, t, v, rep);
  }

  lemma PrefixPairShape(w: string, c: char)
    ensures Wrap(w) + " " + Wrap(w) + [c] == "<ignore>" + (w + ("</ignore> <ignore>" + (w + ("</ignore>" + [c]))))
  {
  }

  lemma LongerGone(name: string, c: char)
    requires IsWord(name) && IsWordChar(c)
    ensures var w := ":" + name;
      ReplaceAll(Wrap(w) + " " + Wrap(w) + [c], w + [c], Wrap(w + [c])) == Wrap(w) + " " + Wrap(w) + [c]
  {
    var w := ":" + name;
    MarkersColonFree();
    assert forall i :: 1 <= i < |w| ==> w[i] != w[0] by {
      forall i | 1 <= i < |w| ensures w[i] != ':' { assert w[i] == name[i - 1]; }
    }
    LongerNotFound("<ignore>", w, "</ignore> <ignore>", "</ignore>", c, Wrap(w + [c]));
    PrefixPairShape(w, c);
  }

  lemma GuardFoldTwo(t: string, a: string, b: string)
    ensures GuardFold(t, [a, b]) == ReplaceAll(ReplaceAll(t, a, Wrap(a)), b, Wrap(b))
  {
    var r := ReplaceAll(t, a, Wrap(a));
    assert [a, b][1..] == [b] && [b][1..] == [];
    assert GuardFold(t, [a, b]) == GuardFold(r, [b]);
  }

  /** Regrouping of a concatenation, kept out of line so that its callers' proofs see only this equation (`PrefixPlaceholderSplits`). */
  lemma Assoc4(a: string, b: string, c: string, d: string)
    ensures a + b + (c + d) == a + b + c + d
  {
  }

  /**
   * A placeholder that begins a later, longer one splits it: wrapping `:name`
   * also wraps the front of `:namec`, which then no longer occurs and is left
   * with its last character outside the markers.
   */
  lemma PrefixPlaceholderSplits(name: string, c: char)
    requires IsWord(name) && IsWordChar(c)
    ensures var w := ":" + name;
      && Placeholders(w + " " + (w + [c])) == [w, w + [c]]
      && Guarded(w + " " + (w + [c])) == Wrap(w) + " " + Wrap(w) + [c]
  {
    var w := ":" + name;
    var v := w + [c];
    PrefixMatches(name, c);
    WrapPrefix(w, " ", c, Wrap(w));
    Assoc4(w, " ", w, [c]);
    LongerGone(name, c);
    GuardFoldTwo(w + " " + v, w, v);
  }

  // ------------------------------------------------------------ the tree map

  /** Two trees with the same keys in the same order and the same nesting. */
  predicate SameShape(a: Entries, b: Entries)
    decreases Branch(a)
  {
    && |a| == |b|
    && forall i :: 0 <= i < |a| ==>
         && a[i].0 == b[i].0
         && (a[i].1.Leaf? <==> b[i].1.Leaf?)
         && (a[i].1.Branch? && b[i].1.Branch? ==> SameShape(a[i].1.children, b[i].1.children))
  }

  function TransformNode(v: Node): (r: Node)
    ensures r.Leaf? <==> v.Leaf?
    ensures v.Branch? ==> SameShape(v.children, r.children)
    decreases v, 1
  {
    match v
    case Leaf(t) => Leaf(Guarded(t))
    case Branch(cs) => Branch(Transform(cs))
  }

  /** `transformTranslation`: the guard applied to every leaf, the keys and the nesting kept. */
  function Transform(es: Entries): (r: Entries)
    ensures SameShape(es, r)
    decreases Branch(es), 0
  {
    seq(|es|, i requires 0 <= i < |es| => (es[i].0, TransformNode(es[i].1)))
  }

  function GuardAll(ls: seq<LeafPath>): seq<LeafPath> {
    seq(|ls|, i requires 0 <= i < |ls| => (ls[i].0, Guarded(ls[i].1)))
  }

  lemma GuardAllConcat(a: seq<LeafPath>, b: seq<LeafPath>)
    ensures GuardAll(a + b) == GuardAll(a) + GuardAll(b)
  {
  }

  lemma GuardAllUnder(k: string, ls: seq<LeafPath>)
    ensures GuardAll(Under(k, ls)) == Under(k, GuardAll(ls))
  {
  }

  /** The leaves of the transformed tree are the leaves of the original, each guarded, with the same paths. */
  lemma {:induction false} TransformLeaves(es: Entries, n: nat)
    requires n <= |es|
    ensures LeavesUpTo(Transform(es), n) == GuardAll(LeavesUpTo(es, n))
    decreases Branch(es), 0, n
  {
    if n > 0 {
      TransformLeaves(es, n - 1);
      var t := Transform(es);
      var k := es[n - 1].0;
      assert t[n - 1] == (k, TransformNode(es[n - 1].1));
      TransformEntryLeaves(k, es[n - 1].1);
      GuardAllConcat(LeavesUpTo(es, n - 1), EntryLeaves(k, es[n - 1].1));
    }
  }

  lemma {:induction false} TransformEntryLeaves(k: string, v: Node)
    ensures EntryLeaves(k, TransformNode(v)) == GuardAll(EntryLeaves(k, v))
    decreases v, 1
  {
    match v
    case Leaf(x) =>
    case Branch(cs) =>
      TransformLeaves(cs, |cs|);
      GuardAllUnder(k, LeavesUpTo(cs, |cs|));
  }
}

=== FILE: handle.dfy ===
/**
 * The parts of the console command's `handle` and `handleResponse` that
 * decide what is sent and what is written: the filter that skips keys the
 * target language already has, the batching of each file's entries into
 * requests of at most 30, and the merge of the decoded result with the
 * existing target file.
 */
module Handle {
  import opened PhpString
  import opened PhpArray
  import opened Markup
  import opened Guard
  import opened Encoder
  import opened Decoder

  /** Translation files by name: `$translations` and `$this->currentlyTranslated`. */
  type Files = seq<(string, Entries)>

  /** One element of `$allFiles`: a file name and the entries still to translate. */
  datatype Pending = Pending(filename: string, translations: Entries)

  /** The array stored for file `name`, if any. */
  function FileGet(files: Files, name: string): (r: Option<Entries>)
    ensures r.Some? ==> (name, r.value) in files
    ensures r.None? ==> forall i :: 0 <= i < |files| ==> files[i].0 != name
    decreases |files|
  {
    if files == [] then None
    else if files[0].0 == name then Some(files[0].1)
    else FileGet(files[1..], name)
  }

  /** `$this->currentlyTranslated[$filename][$key] ?? null`. */
  function ExistingValue(current: Files, filename: string, key: string): Option<Node> {
    match FileGet(current, filename)
    case None => None
    case Some(es) => Get(es, key)
  }

  /** An entry is kept when the target file has no truthy value at its key. */
  predicate Untranslated(current: Files, filename: string, key: string) {
    !Truthy(ExistingValue(current, filename, key))
  }

  // ------------------------------------------------------------ the filter

  /** The entries of `es` whose keys the target file lacks, in their order. */
  function Remaining(es: Entries, current: Files, filename: string): Entries
    decreases |es|
  {
    if es == [] then []
    else
      var rest := Remaining(es[1..], current, filename);
      if Untranslated(current, filename, es[0].0) then [es[0]] + rest else rest
  }

  /**
   * The loop of lines 144-147: `$notTranslatedAllready[$key] = $string` for
   * every entry whose existing value is absent or falsy.
   */
  method FilterUntranslated(transformed: Entries, current: Files, filename: string) returns (kept: Entries)
    requires DistinctKeys(transformed)
    ensures kept == Remaining(transformed, current, filename)
  {
    kept := [];
    var i := 0;
    while i < |transformed|
      invariant 0 <= i <= |transformed|
      invariant Remaining(transformed, current, filename) == kept + Remaining(transformed[i..], current, filename)
      invariant forall j :: 0 <= j < |kept| ==> kept[j] in transformed[..i]
    {
      var key := transformed[i].0;
      FilterStep(transformed, current, filename, i, kept);
      if Untranslated(current, filename, key) {
        kept := Put(kept, key, transformed[i].1);
      }
      i := i + 1;
    }
    assert transformed[i..] == [];
  }

  /** One turn of the filter loop keeps its invariants. */
  lemma FilterStep(ts: Entries, current: Files, filename: string, i: nat, kept: Entries)
    requires DistinctKeys(ts) && i < |ts|
    requires Remaining(ts, current, filename) == kept + Remaining(ts[i..], current, filename)
    requires forall j :: 0 <= j < |kept| ==> kept[j] in ts[..i]
    ensures var next := if Untranslated(current, filename, ts[i].0) then Put(kept, ts[i].0, ts[i].1) else kept;
      && Remaining(ts, current, filename) == next + Remaining(ts[i + 1..], current, filename)
      && forall j :: 0 <= j < |next| ==> next[j] in ts[..i + 1]
  {
    var here: Entries := if Untranslated(current, filename, ts[i].0) then [ts[i]] else [];
    RemainingAt(ts, current, filename, i);
    if Untranslated(current, filename, ts[i].0) {
      KeyNotKept(ts, i, kept);
      PutPlace(kept, ts[i].0, ts[i].1);
    }
    PrefixGrows(ts, i, kept, here);
  }

  /** The filter at position `i`: the entry there, if kept, then the rest. */
  lemma RemainingAt(ts: Entries, current: Files, filename: string, i: nat)
    requires i < |ts|
    ensures Remaining(ts[i..], current, filename)
      == (if Untranslated(current, filename, ts[i].0) then [ts[i]] else []) + Remaining(ts[i + 1..], current, filename)
  {
    assert ts[i..][0] == ts[i] && ts[i..][1..] == ts[i + 1..];
  }

  lemma PrefixGrows(ts: Entries, i: nat, kept: Entries, here: Entries)
    requires i < |ts| && (here == [] || here == [ts[i]])
    requires forall j :: 0 <= j < |kept| ==> kept[j] in ts[..i]
    ensures forall j :: 0 <= j < |kept + here| ==> (kept + here)[j] in ts[..i + 1]
  {
    assert ts[..i + 1] == ts[..i] + [ts[i]];
  }

  /** A key is not kept before its own entry is reached, as the keys are distinct. */
  lemma KeyNotKept(ts: Entries, i: nat, kept: Entries)
    requires DistinctKeys(ts) && i < |ts|
    requires forall j :: 0 <= j < |kept| ==> kept[j] in ts[..i]
    ensures !HasKey(kept, ts[i].0)
  {
    forall j | 0 <= j < |kept| ensures kept[j].0 != ts[i].0 {
      var m :| 0 <= m < i && ts[..i][m] == kept[j];
      assert ts[m] == kept[j];
    }
  }

  /** An entry survives the filter exactly when it was there and its key is untranslated. */
  lemma {:induction false} RemainingMember(es: Entries, current: Files, filename: string, e: (string, Node))
    ensures e in Remaining(es, current, filename) <==> e in es && Untranslated(current, filename, e.0)
    decreases |es|
  {
    if es != [] {
      RemainingMember(es[1..], current, filename, e);
      assert es == [es[0]] + es[1..];
    }
  }

  /** The filter works entry by entry, so kept entries stay in their order. */
  lemma {:induction false} RemainingConcat(a: Entries, b: Entries, current: Files, filename: string)
    ensures Remaining(a + b, current, filename) == Remaining(a, current, filename) + Remaining(b, current, filename)
    decreases |a|
  {
    if a != [] {
      var ab := a + b;
      assert ab != [] && ab[0] == a[0] && ab[1..] == a[1..] + b;
      RemainingConcat(a[1..], b, current, filename);
      var keep := Untranslated(current, filename, a[0].0);
      var ra, rb := Remaining(a[1..], current, filename), Remaining(b, current, filename);
      assert Remaining(ab, current, filename) == (if keep then [a[0]] else []) + (ra + rb);
      assert Remaining(a, current, filename) == (if keep then [a[0]] else []) + ra;
      var x: Entries := if keep then [a[0]] else [];
      assert x + (ra + rb) == (x + ra) + rb;
    } else {
      assert a + b == b;
    }
  }

  /** Without an existing target file nothing is skipped. */
  lemma {:induction false} RemainingFresh(es: Entries, current: Files, filename: string)
    requires FileGet(current, filename).None?
    ensures Remaining(es, current, filename) == es
    decreases |es|
  {
    if es != [] {
      RemainingFresh(es[1..], current, filename);
    }
  }

  /** `transformTranslation` keeps the keys, so it keeps them distinct. */
  lemma TransformDistinct(es: Entries)
    requires DistinctKeys(es)
    ensures DistinctKeys(Transform(es))
  {
    var r := Transform(es);
    assert SameShape(es, r);
    forall i, j | 0 <= i < j < |r| ensures r[i].0 != r[j].0 {
      assert r[i].0 == es[i].0 && r[j].0 == es[j].0;
    }
  }

  // ------------------------------------------------------------ the files

  /** Every file with `transformTranslation` applied to its entries (line 140). */
  function TransformFiles(translations: Files): (r: Files)
    ensures |r| == |translations|
    ensures forall i :: 0 <= i < |r| ==> r[i].0 == translations[i].0
  {
    seq(|translations|, i requires 0 <= i < |translations| => (translations[i].0, Transform(translations[i].1)))
  }

  /** `$allFiles` after the first `n` files: each file's remaining entries, files with none dropped. */
  function PendingUpTo(files: Files, current: Files, n: nat): seq<Pending>
    requires n <= |files|
  {
    if n == 0 then []
    else
      var kept := Remaining(files[n - 1].1, current, files[n - 1].0);
      PendingUpTo(files, current, n - 1) + (if kept == [] then [] else [Pending(files[n - 1].0, kept)])
  }

  /** The loop of lines 139-156 over every source file. */
  method CollectPending(translations: Files, current: Files) returns (allFiles: seq<Pending>)
    requires forall i :: 0 <= i < |translations| ==> DistinctKeys(translations[i].1)
    ensures allFiles == PendingUpTo(TransformFiles(translations), current, |translations|)
  {
    ghost var files := TransformFiles(translations);
    allFiles := [];
    var i := 0;
    while i < |translations|
      invariant 0 <= i <= |translations|
      invariant allFiles == PendingUpTo(files, current, i)
    {
      var filename := translations[i].0;
      var transformed := Transform(translations[i].1);
      assert files[i] == (filename, transformed);
      TransformDistinct(translations[i].1);
      var notTranslated := FilterUntranslated(transformed, current, filename);
      if |notTranslated| != 0 {
        allFiles := allFiles + [Pending(filename, notTranslated)];
      }
      i := i + 1;
    }
  }

  /**
   * A file is listed exactly when some entry of it is untranslated, and then
   * with those entries; no listed file is empty.
   */
  lemma {:induction false} PendingFiles(files: Files, current: Files, n: nat, p: Pending)
    requires n <= |files|
    ensures p in PendingUpTo(files, current, n) <==> exists i :: 0 <= i < n && PendingFrom(files, current, i, p)
  {
    if n > 0 {
      var f := files[n - 1];
      var kept := Remaining(f.1, current, f.0);
      assert (exists i :: 0 <= i < n && PendingFrom(files, current, i, p))
        <==> (exists i :: 0 <= i < n - 1 && PendingFrom(files, current, i, p)) || PendingFrom(files, current, n - 1, p);
      PendingFiles(files, current, n - 1, p);
      var prev := PendingUpTo(files, current, n - 1);
      assert PendingUpTo(files, current, n) == prev + (if kept == [] then [] else [Pending(f.0, kept)]);
      PendingStep(prev, f.0, kept, p);
    }
  }

  /** `p` is what file `i` contributes: its name and its remaining entries, which are not empty. */
  predicate PendingFrom(files: Files, current: Files, i: nat, p: Pending)
    requires i < |files|
  {
    p.filename == files[i].0 && p.translations != [] && p.translations == Remaining(files[i].1, current, files[i].0)
  }

  /** One more file adds its pending entry, if it has any. */
  lemma PendingStep(prev: seq<Pending>, name: string, kept: Entries, p: Pending)
    ensures p in prev + (if kept == [] then [] else [Pending(name, kept)])
      <==> p in prev || (p.filename == name && p.translations != [] && p.translations == kept)
  {
  }

  /** Nothing is pending, so no request is built, exactly when every file is fully translated. */
  lemma {:induction false} NothingPending(files: Files, current: Files, n: nat)
    requires n <= |files|
    ensures PendingUpTo(files, current, n) == [] <==>
      forall i :: 0 <= i < n ==> Remaining(files[i].1, current, files[i].0) == []
  {
    if n > 0 {
      NothingPending(files, current, n - 1);
    }
  }

  // ------------------------------------------------------------ batching

  /** Entries per request: `chunk(30)` at line 168. */
  const ChunkSize: nat := 30

  /** `collect($es)->chunk($size)`: consecutive pieces of `size` entries, the last one possibly shorter. */
  function Chunks(es: Entries, size: nat): seq<Entries>
    requires size > 0
    decreases |es|
  {
    if es == [] then []
    else if |es| <= size then [es]
    else [es[..size]] + Chunks(es[size..], size)
  }

  function Concat(cs: seq<Entries>): Entries
    decreases |cs|
  {
    if cs == [] then [] else cs[0] + Concat(cs[1..])
  }

  /** The chunks put back together are the entries. */
  lemma {:induction false} ChunksConcat(es: Entries, size: nat)
    requires size > 0
    ensures Concat(Chunks(es, size)) == es
    decreases |es|
  {
    var cs := Chunks(es, size);
    if |es| > size {
      var rest := Chunks(es[size..], size);
      assert cs == [es[..size]] + rest;
      assert cs[1..] == rest;
      ChunksConcat(es[size..], size);
      calc {
        Concat(cs);
        cs[0] + Concat(cs[1..]);
        es[..size] + es[size..];
        es;
      }
    } else if es != [] {
      assert cs == [es];
      assert cs[1..] == [];
      assert Concat(cs) == es + [];
    }
  }

  /** No chunk is empty or longer than `size`, and all but the last hold exactly `size`. */
  lemma {:induction false} ChunksSizes(es: Entries, size: nat)
    requires size > 0
    ensures forall j :: 0 <= j < |Chunks(es, size)| ==> 0 < |Chunks(es, size)[j]| <= size
    ensures forall j :: 0 <= j < |Chunks(es, size)| - 1 ==> |Chunks(es, size)[j]| == size
    decreases |es|
  {
    if |es| > size {
      ChunksSizes(es[size..], size);
      var cs, rest := Chunks(es, size), Chunks(es[size..], size);
      assert cs == [es[..size]] + rest;
      forall j | 0 < j < |cs| ensures cs[j] == rest[j - 1] {
      }
    }
  }

  /** The DeepL options that come from the configuration file. */
  datatype Config = Config(ignoreTags: seq<string>, formality: string, preserveFormatting: bool)

  /** The JSON body of one request (lines 170-178). */
  datatype Request = Request(
    tagHandling: string, ignoreTags: seq<string>, sourceLang: string, targetLang: string,
    formality: string, preserveFormatting: bool, texts: seq<string>)

  function MakeRequest(cfg: Config, from: string, to: string, texts: seq<string>): Request {
    Request("xml", cfg.ignoreTags, Upper(from), Upper(to), cfg.formality, cfg.preserveFormatting, texts)
  }

  /** The requests of one file: one per chunk, its texts encoded from that chunk alone. */
  function FileRequests(p: Pending, cfg: Config, from: string, to: string): seq<Request> {
    var cs := Chunks(p.translations, ChunkSize);
    seq(|cs|, j requires 0 <= j < |cs| => MakeRequest(cfg, from, to, Encode(p.filename, Records(cs[j]))))
  }

  function AllRequests(files: seq<Pending>, cfg: Config, from: string, to: string): seq<Request>
    decreases |files|
  {
    if files == [] then [] else AllRequests(files[..|files| - 1], cfg, from, to) + FileRequests(files[|files| - 1], cfg, from, to)
  }

  /** The generator of lines 166-191: for every file, for every chunk, one request. */
  method BuildRequests(allFiles: seq<Pending>, cfg: Config, from: string, to: string) returns (reqs: seq<Request>)
    ensures reqs == AllRequests(allFiles, cfg, from, to)
  {
    reqs := [];
    var i := 0;
    while i < |allFiles|
      invariant 0 <= i <= |allFiles|
      invariant reqs == AllRequests(allFiles[..i], cfg, from, to)
    {
      var file := allFiles[i];
      var chunks := Chunks(file.translations, ChunkSize);
      var j := 0;
      ghost var before := reqs;
      while j < |chunks|
        invariant 0 <= j <= |chunks|
        invariant reqs == before + FileRequests(file, cfg, from, to)[..j]
      {
        var text := AddIgnoreToTextForDeepL(chunks[j], file.filename, [], []);
        assert [] + Encode(file.filename, Records(chunks[j])) == Encode(file.filename, Records(chunks[j]));
        reqs := reqs + [MakeRequest(cfg, from, to, text)];
        assert FileRequests(file, cfg, from, to)[..j + 1] == FileRequests(file, cfg, from, to)[..j] + [MakeRequest(cfg, from, to, text)];
        j := j + 1;
      }
      assert FileRequests(file, cfg, from, to)[..j] == FileRequests(file, cfg, from, to);
      assert allFiles[..i + 1][..i] == allFiles[..i];
      i := i + 1;
    }
    assert allFiles[..i] == allFiles;
  }

  /** Every request of a file is in XML tag mode with upper-cased languages, and every text carries the file's name first. */
  lemma FileRequestsTagged(p: Pending, cfg: Config, from: string, to: string)
    ensures forall j :: 0 <= j < |FileRequests(p, cfg, from, to)| ==>
      var r := FileRequests(p, cfg, from, to)[j];
      && r.tagHandling == "xml" && r.sourceLang == Upper(from) && r.targetLang == Upper(to)
      && forall i :: 0 <= i < |r.texts| ==> StartsWith(r.texts[i], OpenFile + p.filename + CloseFile)
  {
    var cs := Chunks(p.translations, ChunkSize);
    forall j | 0 <= j < |cs| {
      EncodeStartsWithFile(p.filename, Records(cs[j]));
    }
  }

  lemma EncodeStartsWithFile(f: string, rs: seq<Record>)
    ensures forall i :: 0 <= i < |rs| ==> StartsWith(Encode(f, rs)[i], OpenFile + f + CloseFile)
  {
    var head := OpenFile + f + CloseFile;
    forall i | 0 <= i < |rs| ensures StartsWith(Encode(f, rs)[i], head) {
      var t := Encode(f, rs)[i];
      assert t == head + (IndexMarkers(rs[i].0) + rs[i].1);
      assert t[..|head|] == head;
    }
  }

  // --------------------------------------------------------------- merging

  /** `$this->currentlyTranslated[$filename] ?? []`. */
  function Existing(current: Files, filename: string): Entries {
    match FileGet(current, filename)
    case None => []
    case Some(es) => es
  }

  /** Line 284: `array_merge($newTranslations, $this->currentlyTranslated[$filename] ?? [])`. */
  function MergeExisting(newTranslations: Entries, current: Files, filename: string): Entries {
    ArrayMerge(newTranslations, Existing(current, filename))
  }

  /** Every key the target file already had keeps its value; every other key takes the new one. */
  lemma MergeKeepsExisting(newTranslations: Entries, current: Files, filename: string, k: string)
    requires DistinctKeys(Existing(current, filename))
    ensures Get(MergeExisting(newTranslations, current, filename), k)
         == if HasKey(Existing(current, filename), k) then Get(Existing(current, filename), k) else Get(newTranslations, k)
  {
    ArrayMergeGet(newTranslations, Existing(current, filename), k);
  }

  /**
   * A key whose existing value is falsy passes the filter and is sent, but
   * the merge puts the old falsy value back over whatever came back.
   */
  lemma FalsyExistingWins(newTranslations: Entries, current: Files, filename: string, k: string, stale: string)
    requires DistinctKeys(Existing(current, filename))
    requires Get(Existing(current, filename), k) == Some(Leaf(stale)) && (stale == "" || stale == "0")
    ensures Untranslated(current, filename, k)
    ensures Get(MergeExisting(newTranslations, current, filename), k) == Some(Leaf(stale))
  {
    MergeKeepsExisting(newTranslations, current, filename, k);
  }

  /** `MergeKeepsExisting` for every key at once. */
  lemma MergeGetAll(newTranslations: Entries, current: Files, filename: string)
    ensures DistinctKeys(Existing(current, filename)) ==>
      forall k :: Get(MergeExisting(newTranslations, current, filename), k)
        == if HasKey(Existing(current, filename), k) then Get(Existing(current, filename), k) else Get(newTranslations, k)
  {
    if DistinctKeys(Existing(current, filename)) {
      forall k {
        MergeKeepsExisting(newTranslations, current, filename, k);
      }
    }
  }

  /**
   * `handleResponse` for the texts of one response (lines 283-292): the file
   * named by the last text, and the array written over it. Each key the file
   * had when the command started keeps that value; every other key holds
   * what this response decodes to, and nothing from any other response.
   * Nothing is written (`None`) when decoding the response fails.
   */
  function Written(texts: seq<string>, current: Files): (w: Option<(string, Entries)>)
    ensures w.None? <==> !AllReadable(texts)
    ensures w.Some? ==> w.value.0 == LastFilename(texts)
    ensures w.Some? && DistinctKeys(Existing(current, w.value.0)) ==>
      forall k :: Get(w.value.1, k)
        == if HasKey(Existing(current, w.value.0), k) then Get(Existing(current, w.value.0), k) else Get(DecodeUpTo(texts, |texts|), k)
  {
    if !AllReadable(texts) then None
    else
      var filename := LastFilename(texts);
      var decoded := DecodeUpTo(texts, |texts|);
      MergeGetAll(decoded, current, filename);
      Some((filename, MergeExisting(decoded, current, filename)))
  }

  /**
   * A file with more than 30 pending entries is sent in several requests,
   * and each response is merged with the target file as it was loaded at the
   * start, then written over the file. A key that only an earlier response
   * carried is in that response's write, but is gone from the write of a
   * later response for the same file: the last write wins.
   */
  lemma LaterResponseDropsEarlierKeys(earlier: seq<string>, later: seq<string>, current: Files, k: string)
    requires AllReadable(earlier) && AllReadable(later)
    requires LastFilename(earlier) == LastFilename(later)
    requires DistinctKeys(Existing(current, LastFilename(later)))
    requires !HasKey(Existing(current, LastFilename(later)), k)
    requires HasKey(DecodeUpTo(earlier, |earlier|), k) && !HasKey(DecodeUpTo(later, |later|), k)
    ensures Written(earlier, current).Some? && Written(later, current).Some?
    ensures Written(earlier, current).value.0 == Written(later, current).value.0
    ensures Get(Written(earlier, current).value.1, k) == Get(DecodeUpTo(earlier, |earlier|), k) != None
    ensures Get(Written(later, current).value.1, k) == None
  {
  }

  /**
   * End to end for a file that holds the single entry `k => text` and has no
   * target file yet: with the text returned as sent, `[k => trim(text)]` is written to `f`.
   */
  lemma OneLeafWritten(f: string, k: string, text: string, current: Files)
    requires AngleFree(text) && Isolated(FileTag, IndexTag, f, k, Guarded(text))
    requires FileGet(current, f).None?
    ensures Remaining(Transform([(k, Leaf(text))]), current, f) == Transform([(k, Leaf(text))])
    ensures Written(Encode(f, Records(Transform([(k, Leaf(text))]))), current) == Some((f, [(k, Leaf(Trim(text)))]))
  {
    RemainingFresh(Transform([(k, Leaf(text))]), current, f);
    OneLeafPipeline(f, k, text);
  }
}

=== FILE: markup.dfy ===
/**
 * A token view of the strings the command builds and strips: plain
 * characters and `<name>` marker tags. A string whose `<` and `>` only
 * occur inside markers is `Render(ts)` for exactly one token sequence, and
 * the text operations of the codec (wrapping a placeholder, deleting every
 * copy of a marker) become simple operations on tokens.
 */
module Markup {
  import opened PhpString

  datatype Tok = Ch(c: char) | Tag(name: string)

  function TagText(name: string): string {
    "<" + name + ">"
  }

  function TokText(t: Tok): string {
    match t
    case Ch(c) => [c]
    case Tag(n) => TagText(n)
  }

  function Render(ts: seq<Tok>): string
    decreases |ts|
  {
    if ts == [] then "" else TokText(ts[0]) + Render(ts[1..])
  }

  /** The tokens of a string without markers. */
  function Plain(s: string): seq<Tok> {
    seq(|s|, i requires 0 <= i < |s| => Ch(s[i]))
  }

  /** The characters of a token sequence, markers left out. */
  function Chars(ts: seq<Tok>): string
    decreases |ts|
  {
    if ts == [] then "" else (if ts[0].Ch? then [ts[0].c] else "") + Chars(ts[1..])
  }

  predicate AngleFree(s: string) {
    forall i :: 0 <= i < |s| ==> s[i] != '<' && s[i] != '>'
  }

  /** Characters are never `<` or `>`; marker names contain neither, nor a colon. */
  predicate TokOk(t: Tok) {
    match t
    case Ch(c) => c != '<' && c != '>'
    case Tag(n) => AngleFree(n) && ':' !in n
  }

  /** A closing marker name is as good as its opening one. */
  lemma SlashOk(n: string)
    requires TokOk(Tag(n))
    ensures TokOk(Tag("/" + n))
  {
    var m := "/" + n;
    forall i | 1 <= i < |m| ensures m[i] == n[i - 1] {
    }
  }

  predicate WellFormed(ts: seq<Tok>) {
    forall i :: 0 <= i < |ts| ==> TokOk(ts[i])
  }

  /** Every marker in `ts` is named in `names`. */
  predicate TagsWithin(ts: seq<Tok>, names: set<string>) {
    forall i :: 0 <= i < |ts| ==> ts[i].Tag? ==> ts[i].name in names
  }

  function RemoveTag(ts: seq<Tok>, n: string): seq<Tok>
    decreases |ts|
  {
    if ts == [] then [] else (if ts[0] == Tag(n) then [] else [ts[0]]) + RemoveTag(ts[1..], n)
  }

  function RemoveTags(ts: seq<Tok>, names: seq<string>): seq<Tok>
    decreases |names|
  {
    if names == [] then ts else RemoveTags(RemoveTag(ts, names[0]), names[1..])
  }

  function TagTexts(names: seq<string>): seq<string> {
    seq(|names|, i requires 0 <= i < |names| => TagText(names[i]))
  }

  // ---------------------------------------------------------------- rendering

  lemma {:induction false} RenderConcat(a: seq<Tok>, b: seq<Tok>)
    ensures Render(a + b) == Render(a) + Render(b)
    decreases |a|
  {
    if a != [] {
      assert (a + b)[1..] == a[1..] + b;
      RenderConcat(a[1..], b);
    } else {
      assert a + b == b;
    }
  }

  lemma {:induction false} CharsConcat(a: seq<Tok>, b: seq<Tok>)
    ensures Chars(a + b) == Chars(a) + Chars(b)
    decreases |a|
  {
    if a != [] {
      assert (a + b)[1..] == a[1..] + b;
      CharsConcat(a[1..], b);
    } else {
      assert a + b == b;
    }
  }

  lemma {:induction false} PlainRoundTrip(s: string)
    ensures Render(Plain(s)) == s && Chars(Plain(s)) == s
    ensures AngleFree(s) ==> WellFormed(Plain(s))
    ensures TagsWithin(Plain(s), {})
    decreases |s|
  {
    if s != [] {
      assert Plain(s)[1..] == Plain(s[1..]);
      PlainRoundTrip(s[1..]);
    }
  }

  lemma {:induction false} PlainConcat(a: string, b: string)
    ensures Plain(a + b) == Plain(a) + Plain(b)
  {
  }

  /** Without markers, a rendering is just its characters. */
  lemma {:induction false} RenderNoTags(ts: seq<Tok>)
    requires TagsWithin(ts, {})
    ensures Render(ts) == Chars(ts)
    decreases |ts|
  {
    if ts != [] {
      RenderNoTags(ts[1..]);
    }
  }

  /**
   * A rendering that begins with a marker-free string begins with the
   * characters of that string as tokens.
   */
  lemma {:induction false} PlainPrefix(ts: seq<Tok>, u: string)
    requires WellFormed(ts) && AngleFree(u)
    requires StartsWith(Render(ts), u)
    ensures |u| <= |ts| && ts[..|u|] == Plain(u)
    decreases |u|
  {
    if u != [] {
      RenderHead(ts, u);
      PlainPrefix(ts[1..], u[1..]);
      assert ts[..|u|] == [ts[0]] + ts[1..][..|u| - 1];
      assert Plain(u) == [Ch(u[0])] + Plain(u[1..]);
    } else {
      assert Plain(u) == [] == ts[..0];
    }
  }

  /** The first character of a marker-free prefix is the first token. */
  lemma RenderHead(ts: seq<Tok>, u: string)
    requires WellFormed(ts) && AngleFree(u) && u != []
    requires StartsWith(Render(ts), u)
    ensures ts != [] && ts[0] == Ch(u[0])
    ensures StartsWith(Render(ts[1..]), u[1..])
  {
    var r := Render(ts);
    assert r[0] == u[0] by {
      assert r[..|u|][0] == r[0];
    }
    assert ts != [];
    var head := TokText(ts[0]);
    assert r == head + Render(ts[1..]);
    assert head[0] == u[0];
    assert head[0] == if ts[0].Ch? then ts[0].c else '<';
    assert ts[0].Ch?;
    assert r[1..] == Render(ts[1..]);
    assert r[..|u|][1..] == r[1..][..|u| - 1];
  }

  // ---------------------------------------------------------- deleting markers

  /** Two different marker-free names never give one marker text a prefix of the other's. */
  lemma TagMismatch(m: string, n: string, y: string)
    requires m != n && AngleFree(m) && AngleFree(n)
    ensures !StartsWith(TagText(m) + y, TagText(n))
  {
    var s := TagText(m) + y;
    var t := TagText(n);
    if |t| <= |s| {
      var j: nat;
      if |m| < |n| {
        j := |m| + 1;
        assert s[j] == '>' && t[j] == n[|m|];
      } else if |n| < |m| {
        j := |n| + 1;
        assert t[j] == '>' && s[j] == m[|n|];
      } else {
        var i :| 0 <= i < |m| && m[i] != n[i];
        j := i + 1;
        assert s[j] == m[i] && t[j] == n[i];
      }
      assert s[..|t|][j] != t[j];
    }
  }

  /** A marker that differs from the one searched for is copied through whole. */
  lemma ReplacePastTag(m: string, n: string, y: string, rep: string)
    requires m != n && AngleFree(m) && AngleFree(n)
    ensures ReplaceAll(TagText(m) + y, TagText(n), rep) == TagText(m) + ReplaceAll(y, TagText(n), rep)
  {
    var t, u, r := TagText(n), m + ">", ReplaceAll(y, TagText(n), rep);
    assert ReplaceAll(u + y, t, rep) == u + r by {
      assert t[0] == '<';
      forall i | 0 <= i < |u| ensures u[i] != t[0] {
        if i < |m| {
          assert u[i] == m[i];
        }
      }
      ReplaceAllSkip(u, y, t, rep);
    }
    assert ReplaceAll(TagText(m) + y, t, rep) == ['<'] + ReplaceAll(u + y, t, rep) by {
      TagMismatch(m, n, y);
      assert TagText(m) + y == ['<'] + (u + y);
      ReplaceAllCons('<', u + y, t, rep);
    }
    assert TagText(m) + r == ['<'] + (u + r) by {
      assert TagText(m) == ['<'] + u;
    }
  }

  /** Deleting every copy of the marker `<n>` from a rendering deletes exactly the `Tag(n)` tokens. */
  lemma {:induction false} RemoveTagRender(ts: seq<Tok>, n: string)
    requires WellFormed(ts) && AngleFree(n)
    ensures ReplaceAll(Render(ts), TagText(n), "") == Render(RemoveTag(ts, n))
    ensures WellFormed(RemoveTag(ts, n))
    decreases |ts|
  {
    if ts != [] {
      var r := Render(ts[1..]);
      RemoveTagRender(ts[1..], n);
      assert RemoveTag(ts, n) == (if ts[0] == Tag(n) then [] else [ts[0]]) + RemoveTag(ts[1..], n);
      RenderConcat(if ts[0] == Tag(n) then [] else [ts[0]], RemoveTag(ts[1..], n));
      match ts[0]
      case Ch(c) =>
        ReplaceAllSkip([c], r, TagText(n), "");
      case Tag(m) =>
        if m == n {
          var s := TagText(n) + r;
          assert s[..|TagText(n)|] == TagText(n) && s[|TagText(n)|..] == r;
        } else {
          ReplacePastTag(m, n, r, "");
        }
    }
  }

  /** Deleting a list of markers in turn, as one `str_replace` with an array of searches does. */
  lemma {:induction false} RemoveTagsRender(ts: seq<Tok>, names: seq<string>)
    requires WellFormed(ts)
    requires forall i :: 0 <= i < |names| ==> AngleFree(names[i])
    ensures ReplaceEach(Render(ts), TagTexts(names), "") == Render(RemoveTags(ts, names))
    decreases |names|
  {
    if names != [] {
      RemoveTagRender(ts, names[0]);
      assert TagTexts(names)[1..] == TagTexts(names[1..]);
      RemoveTagsRender(RemoveTag(ts, names[0]), names[1..]);
    }
  }

  lemma {:induction false} RemoveTagKeeps(ts: seq<Tok>, n: string, names: set<string>)
    requires TagsWithin(ts, names)
    ensures Chars(RemoveTag(ts, n)) == Chars(ts)
    ensures TagsWithin(RemoveTag(ts, n), names - {n})
    decreases |ts|
  {
    if ts != [] {
      RemoveTagKeeps(ts[1..], n, names);
      CharsConcat(if ts[0] == Tag(n) then [] else [ts[0]], RemoveTag(ts[1..], n));
    }
  }

  /** Deleting every marker name that occurs leaves the characters alone. */
  lemma {:induction false} RemoveTagsLeavesChars(ts: seq<Tok>, names: seq<string>, present: set<string>)
    requires TagsWithin(ts, present)
    ensures Chars(RemoveTags(ts, names)) == Chars(ts)
    ensures TagsWithin(RemoveTags(ts, names), present - set x | x in names)
    decreases |names|
  {
    if names != [] {
      RemoveTagKeeps(ts, names[0], present);
      RemoveTagsLeavesChars(RemoveTag(ts, names[0]), names[1..], present - {names[0]});
      assert (set x | x in names) == {names[0]} + (set x | x in names[1..]) by {
        assert names == [names[0]] + names[1..];
      }
    }
  }

  /** Deleting a list of marker literals that covers every marker present leaves just the characters. */
  lemma StripMarkers(ts: seq<Tok>, names: seq<string>, present: set<string>)
    requires WellFormed(ts) && TagsWithin(ts, present)
    requires forall i :: 0 <= i < |names| ==> AngleFree(names[i])
    requires forall n :: n in present ==> n in names
    ensures ReplaceEach(Render(ts), TagTexts(names), "") == Chars(ts)
  {
    var r := RemoveTags(ts, names);
    RemoveTagsRender(ts, names);
    RemoveTagsLeavesChars(ts, names, present);
    CoveredTagsGone(r, names, present);
    RenderNoTags(r);
  }

  lemma CoveredTagsGone(ts: seq<Tok>, names: seq<string>, present: set<string>)
    requires TagsWithin(ts, present - set x | x in names)
    requires forall n :: n in present ==> n in names
    ensures TagsWithin(ts, {})
  {
  }

  // ------------------------------------------------------- wrapping a placeholder

  /** `<ignore>w</ignore>`, the wrapping the guard gives a placeholder. */
  function Wrap(w: string): string {
    "<ignore>" + w + "</ignore>"
  }

  /** A placeholder as the guard finds it: a colon first, no `<` or `>`. */
  predicate PlaceholderShaped(w: string) {
    |w| > 0 && w[0] == ':' && AngleFree(w)
  }

  /** The token-level counterpart of wrapping every occurrence of `w`. */
  function GuardTok(ts: seq<Tok>, w: string): seq<Tok>
    requires |w| > 0
    decreases |ts|
  {
    if ts == [] then []
    else if |w| <= |ts| && ts[..|w|] == Plain(w) then
      [Tag("ignore")] + Plain(w) + [Tag("/ignore")] + GuardTok(ts[|w|..], w)
    else [ts[0]] + GuardTok(ts[1..], w)
  }

  lemma RenderOne(t: Tok)
    ensures Render([t]) == TokText(t)
    ensures Chars([t]) == if t.Ch? then [t.c] else ""
  {
    assert [t][1..] == [];
  }

  lemma WrapRender(w: string)
    ensures Render([Tag("ignore")] + Plain(w) + [Tag("/ignore")]) == Wrap(w)
  {
    var open, close := [Tag("ignore")], [Tag("/ignore")];
    var x := open + Plain(w);
    assert Render(open) == "<ignore>" by {
      RenderOne(Tag("ignore"));
    }
    assert Render(close) == "</ignore>" by {
      RenderOne(Tag("/ignore"));
    }
    assert Render(x) == "<ignore>" + w by {
      RenderConcat(open, Plain(w));
      PlainRoundTrip(w);
    }
    RenderConcat(x, close);
  }

  lemma WrapChars(w: string)
    ensures Chars([Tag("ignore")] + Plain(w) + [Tag("/ignore")]) == w
  {
    var open, close := [Tag("ignore")], [Tag("/ignore")];
    var x := open + Plain(w);
    assert Chars(x) == w by {
      CharsConcat(open, Plain(w));
      RenderOne(Tag("ignore"));
      PlainRoundTrip(w);
    }
    assert Chars(close) == "" by {
      RenderOne(Tag("/ignore"));
    }
    CharsConcat(x, close);
    assert w + "" == w;
  }

  lemma WellFormedConcat(a: seq<Tok>, b: seq<Tok>, names: set<string>)
    requires WellFormed(a) && WellFormed(b) && TagsWithin(a, names) && TagsWithin(b, names)
    ensures WellFormed(a + b) && TagsWithin(a + b, names)
  {
    forall i | 0 <= i < |a + b| ensures TokOk((a + b)[i]) && ((a + b)[i].Tag? ==> (a + b)[i].name in names) {
      if i < |a| { assert (a + b)[i] == a[i]; } else { assert (a + b)[i] == b[i - |a|]; }
    }
  }

  lemma WrappedWellFormed(w: string)
    requires AngleFree(w)
    ensures WellFormed([Tag("ignore")] + Plain(w) + [Tag("/ignore")])
    ensures TagsWithin([Tag("ignore")] + Plain(w) + [Tag("/ignore")], {"ignore", "/ignore"})
  {
    var ns := {"ignore", "/ignore"};
    assert AngleFree("ignore") && AngleFree("/ignore");
    assert ':' !in "ignore" && ':' !in "/ignore";
    PlainRoundTrip(w);
    assert TagsWithin(Plain(w), ns);
    WellFormedConcat([Tag("ignore")], Plain(w), ns);
    WellFormedConcat([Tag("ignore")] + Plain(w), [Tag("/ignore")], ns);
  }

  /** The step of `GuardTokRender` where the tokens begin with the placeholder. */
  lemma GuardTokAtMatch(ts: seq<Tok>, w: string)
    requires |w| > 0 && |w| <= |ts| && ts[..|w|] == Plain(w)
    ensures GuardTok(ts, w) == [Tag("ignore")] + Plain(w) + [Tag("/ignore")] + GuardTok(ts[|w|..], w)
    ensures Render(ts) == w + Render(ts[|w|..]) && Chars(ts) == w + Chars(ts[|w|..])
  {
    var rest := ts[|w|..];
    assert ts == Plain(w) + rest;
    assert Render(ts) == w + Render(rest) by {
      RenderConcat(Plain(w), rest);
      PlainRoundTrip(w);
    }
    assert Chars(ts) == w + Chars(rest) by {
      CharsConcat(Plain(w), rest);
      PlainRoundTrip(w);
    }
  }

  lemma WrappedTokens(w: string, rest: seq<Tok>, present: set<string>)
    requires AngleFree(w) && WellFormed(rest) && TagsWithin(rest, present)
    requires "ignore" in present && "/ignore" in present
    ensures var ts := [Tag("ignore")] + Plain(w) + [Tag("/ignore")] + rest;
      && Render(ts) == Wrap(w) + Render(rest)
      && Chars(ts) == w + Chars(rest)
      && WellFormed(ts)
      && TagsWithin(ts, present)
  {
    var wrapped := [Tag("ignore")] + Plain(w) + [Tag("/ignore")];
    WrapRender(w);
    WrapChars(w);
    RenderConcat(wrapped, rest);
    CharsConcat(wrapped, rest);
    WrappedWellFormed(w);
    assert TagsWithin(wrapped, present);
    WellFormedConcat(wrapped, rest, present);
  }

  /** What `GuardTokRender` establishes for one token sequence. */
  predicate GuardAgrees(ts: seq<Tok>, w: string, names: set<string>)
    requires |w| > 0
  {
    && ReplaceAll(Render(ts), w, Wrap(w)) == Render(GuardTok(ts, w))
    && WellFormed(GuardTok(ts, w))
    && Chars(GuardTok(ts, w)) == Chars(ts)
    && TagsWithin(GuardTok(ts, w), names)
  }

  lemma GuardStepMatch(ts: seq<Tok>, w: string, names: set<string>)
    requires PlaceholderShaped(w) && |w| <= |ts| && ts[..|w|] == Plain(w)
    requires "ignore" in names && "/ignore" in names
    requires GuardAgrees(ts[|w|..], w, names)
    ensures GuardAgrees(ts, w, names)
  {
    var rest := ts[|w|..];
    var s := Render(ts);
    GuardTokAtMatch(ts, w);
    assert s[..|w|] == w && s[|w|..] == Render(rest);
    WrappedTokens(w, GuardTok(rest, w), names);
  }

  /** A rendering cannot begin with a placeholder its tokens do not begin with. */
  lemma NoPlainNoStart(ts: seq<Tok>, w: string)
    requires WellFormed(ts) && AngleFree(w)
    requires !(|w| <= |ts| && ts[..|w|] == Plain(w))
    ensures !StartsWith(Render(ts), w)
  {
    if StartsWith(Render(ts), w) {
      PlainPrefix(ts, w);
    }
  }

  /** A marker contains no colon, so no placeholder match can start inside it. */
  lemma TagColonFree(n: string)
    requires ':' !in n
    ensures forall i :: 0 <= i < |TagText(n)| ==> TagText(n)[i] != ':'
  {
    forall i | 0 <= i < |TagText(n)| ensures TagText(n)[i] != ':' {
      if 0 < i <= |n| { assert TagText(n)[i] == n[i - 1]; }
    }
  }

  /** Where no placeholder starts, one token is copied through whole. */
  lemma ReplacePastToken(t: Tok, r: string, w: string)
    requires TokOk(t) && PlaceholderShaped(w)
    requires !StartsWith(TokText(t) + r, w)
    ensures ReplaceAll(TokText(t) + r, w, Wrap(w)) == TokText(t) + ReplaceAll(r, w, Wrap(w))
  {
    match t
    case Ch(c) =>
      ReplaceAllStep([c] + r, w, Wrap(w));
      assert ([c] + r)[1..] == r;
    case Tag(n) =>
      TagColonFree(n);
      ReplaceAllSkip(TagText(n), r, w, Wrap(w));
  }

  lemma GuardStepOther(ts: seq<Tok>, w: string, names: set<string>)
    requires PlaceholderShaped(w) && WellFormed(ts) && ts != [] && TagsWithin(ts, names)
    requires !(|w| <= |ts| && ts[..|w|] == Plain(w))
    requires GuardAgrees(ts[1..], w, names)
    ensures GuardAgrees(ts, w, names)
  {
    var g := GuardTok(ts[1..], w);
    assert GuardTok(ts, w) == [ts[0]] + g;
    RenderConcat([ts[0]], g);
    CharsConcat([ts[0]], g);
    RenderOne(ts[0]);
    WellFormedConcat([ts[0]], g, names);
    NoPlainNoStart(ts, w);
    assert Render(ts) == TokText(ts[0]) + Render(ts[1..]);
    ReplacePastToken(ts[0], Render(ts[1..]), w);
  }

  /**
   * Replacing every `w` by `<ignore>w</ignore>` in a rendering is rendering
   * the token-level wrapping; the characters are kept, no marker other than
   * `ignore` and `/ignore` is added and the tokens stay well formed.
   */
  lemma {:induction false} GuardTokRender(ts: seq<Tok>, w: string, names: set<string>)
    requires WellFormed(ts) && PlaceholderShaped(w) && TagsWithin(ts, names)
    requires "ignore" in names && "/ignore" in names
    ensures GuardAgrees(ts, w, names)
    decreases |ts|
  {
    if ts == [] {
      assert GuardTok(ts, w) == [];
    } else if |w| <= |ts| && ts[..|w|] == Plain(w) {
      var rest := ts[|w|..];
      assert TagsWithin(rest, names) && WellFormed(rest);
      GuardTokRender(rest, w, names);
      GuardStepMatch(ts, w, names);
    } else {
      assert TagsWithin(ts[1..], names) && WellFormed(ts[1..]);
      GuardTokRender(ts[1..], w, names);
      GuardStepOther(ts, w, names);
    }
  }

  // ------------------------------------------------------------------ search

  /** Searching for a marker that `pre` does not hold skips all of `pre`. */
  lemma {:induction false} FindPastTokens(pre: seq<Tok>, z: string, n: string, names: set<string>)
    requires WellFormed(pre) && TagsWithin(pre, names) && n !in names && AngleFree(n)
    ensures Find(Render(pre) + z, TagText(n)) == ShiftBy(|Render(pre)|, Find(z, TagText(n)))
    decreases |pre|
  {
    if pre != [] {
      var t, rest := pre[0], pre[1..];
      assert TokOk(t) && (t.Tag? ==> t.name in names);
      assert WellFormed(rest) && TagsWithin(rest, names) by {
        forall i | 0 <= i < |rest| ensures TokOk(rest[i]) && (rest[i].Tag? ==> rest[i].name in names) {
          assert rest[i] == pre[i + 1];
        }
      }
      FindPastTokens(rest, z, n, names);
      RenderFront(pre);
      FindPastStep(t, Render(rest), z, n);
    } else {
      assert Render(pre) + z == z;
    }
  }

  /** Regrouping of a concatenation, kept out of line so that its callers' proofs see only this equation (`Guard.PrefixMatches`, `FindCompose` and `FindPastThree`). */
  lemma AssocThree(a: string, b: string, c: string)
    ensures (a + b) + c == a + (b + c)
  {
  }

  lemma RenderFront(ts: seq<Tok>)
    requires ts != []
    ensures Render(ts) == TokText(ts[0]) + Render(ts[1..])
  {
  }

  lemma FindPastStep(t: Tok, tail: string, z: string, n: string)
    requires TokOk(t) && AngleFree(n) && t != Tag(n)
    requires Find(tail + z, TagText(n)) == ShiftBy(|tail|, Find(z, TagText(n)))
    ensures Find(TokText(t) + tail + z, TagText(n)) == ShiftBy(|TokText(t) + tail|, Find(z, TagText(n)))
  {
    FindPastToken(t, tail + z, n);
    FindCompose(TokText(t), tail, z, TagText(n));
  }

  lemma FindCompose(h: string, tail: string, z: string, w: string)
    requires Find(h + (tail + z), w) == ShiftBy(|h|, Find(tail + z, w))
    requires Find(tail + z, w) == ShiftBy(|tail|, Find(z, w))
    ensures Find(h + tail + z, w) == ShiftBy(|h + tail|, Find(z, w))
  {
    AssocThree(h, tail, z);
    ShiftTwice(|h|, |tail|, Find(z, w));
  }

  /** Two shifts of a found position add up; kept out of line for the searches in `FindCompose` and `FindPastThree`. */
  lemma ShiftTwice(d: nat, e: nat, o: Option<nat>)
    ensures ShiftBy(d, ShiftBy(e, o)) == ShiftBy(d + e, o)
  {
  }

  lemma FindPastToken(t: Tok, r: string, n: string)
    requires TokOk(t) && AngleFree(n) && t != Tag(n)
    ensures Find(TokText(t) + r, TagText(n)) == ShiftBy(|TokText(t)|, Find(r, TagText(n)))
  {
    var w := TagText(n);
    assert w[0] == '<';
    match t
    case Ch(c) =>
      FindSkip([c], r, w);
    case Tag(m) =>
      TagMismatch(m, n, r);
      var s := TagText(m) + r;
      var tail := m + ">";
      assert s[1..] == tail + r;
      assert forall i :: 0 <= i < |tail| ==> tail[i] != w[0] by {
        forall i | 0 <= i < |tail| ensures tail[i] != '<' {
          if i < |m| { assert tail[i] == m[i]; }
        }
      }
      FindSkip(tail, r, w);
  }

  /** Searching for another marker skips a marker pair around plain text. */
  lemma FindPastMarked(o: string, x: string, c: string, z: string, n: string)
    requires TokOk(Tag(o)) && TokOk(Tag(c)) && AngleFree(x) && AngleFree(n) && n != o && n != c
    ensures Find(TagText(o) + x + TagText(c) + z, TagText(n))
         == ShiftBy(|TagText(o) + x + TagText(c)|, Find(z, TagText(n)))
  {
    var ot, ct, w := TagText(o), TagText(c), TagText(n);
    assert w[0] == '<';
    FindPastToken(Tag(c), z, n);
    FindSkip(x, ct + z, w);
    FindPastToken(Tag(o), x + ct + z, n);
    FindPastThree(ot, x, ct, z, w);
  }

  lemma FindPastThree(a: string, b: string, c: string, z: string, w: string)
    requires Find(c + z, w) == ShiftBy(|c|, Find(z, w))
    requires Find(b + (c + z), w) == ShiftBy(|b|, Find(c + z, w))
    requires Find(a + (b + c + z), w) == ShiftBy(|a|, Find(b + c + z, w))
    ensures Find(a + b + c + z, w) == ShiftBy(|a + b + c|, Find(z, w))
  {
    var fz := Find(z, w);
    var bcz := b + c + z;
    AssocThree(b, c, z);
    assert a + b + c + z == a + bcz by {
      AssocThree(a, b, c);
      AssocThree(a, b + c, z);
    }
    assert Find(bcz, w) == ShiftBy(|b|, ShiftBy(|c|, fz));
    ShiftTwice(|b|, |c|, fz);
    ShiftTwice(|a|, |b| + |c|, fz);
    assert |a + b + c| == |a| + (|b| + |c|);
  }

  /** A marker that `ts` does not hold is found nowhere in its rendering. */
  lemma NoTagNoOccur(ts: seq<Tok>, n: string, names: set<string>)
    requires WellFormed(ts) && TagsWithin(ts, names) && n !in names && AngleFree(n)
    ensures !Occurs(TagText(n), Render(ts))
  {
    FindPastTokens(ts, "", n, names);
    assert Render(ts) + "" == Render(ts);
    FindSound(Render(ts), TagText(n));
  }

  // ------------------------------------------------------------- marked text

  /** A marker pair around plain text, followed by more tokens. */
  function Marked(o: string, x: string, c: string, rest: seq<Tok>): seq<Tok> {
    [Tag(o)] + Plain(x) + [Tag(c)] + rest
  }

  lemma MarkedRender(o: string, x: string, c: string, rest: seq<Tok>)
    ensures Render(Marked(o, x, c, rest)) == TagText(o) + x + TagText(c) + Render(rest)
  {
    var a, b := [Tag(o)] + Plain(x), [Tag(c)];
    RenderConcat(a + b, rest);
    RenderConcat(a, b);
    RenderConcat([Tag(o)], Plain(x));
    RenderOne(Tag(o));
    RenderOne(Tag(c));
    PlainRoundTrip(x);
    assert Render(a) == TagText(o) + x;
    assert Render(a + b) == TagText(o) + x + TagText(c);
  }

  lemma MarkedChars(o: string, x: string, c: string, rest: seq<Tok>)
    ensures Chars(Marked(o, x, c, rest)) == x + Chars(rest)
  {
    var a, b := [Tag(o)] + Plain(x), [Tag(c)];
    CharsConcat(a + b, rest);
    CharsConcat(a, b);
    CharsConcat([Tag(o)], Plain(x));
    RenderOne(Tag(o));
    RenderOne(Tag(c));
    PlainRoundTrip(x);
    assert Chars(a) == x;
    assert Chars(a + b) == x;
  }

  lemma MarkedWellFormed(o: string, x: string, c: string, rest: seq<Tok>, present: set<string>)
    requires TokOk(Tag(o)) && TokOk(Tag(c)) && AngleFree(x)
    requires WellFormed(rest) && TagsWithin(rest, present) && o in present && c in present
    ensures WellFormed(Marked(o, x, c, rest)) && TagsWithin(Marked(o, x, c, rest), present)
  {
    PlainRoundTrip(x);
    assert TagsWithin(Plain(x), present);
    WellFormedConcat([Tag(o)], Plain(x), present);
    WellFormedConcat([Tag(o)] + Plain(x), [Tag(c)], present);
    WellFormedConcat([Tag(o)] + Plain(x) + [Tag(c)], rest, present);
  }
}

=== FILE: php_array.dfy ===
/**
 * PHP's ordered arrays as the command uses them: string keys mapped to
 * either a string or a nested array, in insertion order. Assigning to an
 * existing key keeps its place; a new key goes to the end.
 */
module PhpArray {
  import opened PhpString

  /** A localisation value: a string, or a nested array of further values. */
  datatype Node = Leaf(text: string) | Branch(children: seq<(string, Node)>)

  /** The entries of one PHP array, in iteration order. */
  type Entries = seq<(string, Node)>

  /** A leaf of a tree with the keys leading to it, outermost first. */
  type LeafPath = (seq<string>, string)

  /** No key occurs twice, as in every PHP array. */
  predicate DistinctKeys(es: Entries) {
    forall i, j :: 0 <= i < j < |es| ==> es[i].0 != es[j].0
  }

  function Keys(es: Entries): seq<string> {
    seq(|es|, i requires 0 <= i < |es| => es[i].0)
  }

  predicate HasKey(es: Entries, k: string) {
    exists i :: 0 <= i < |es| && es[i].0 == k
  }

  /** `$a[$k] ?? null`: the value of the first entry with key `k`. */
  function Get(es: Entries, k: string): (r: Option<Node>)
    ensures r.None? <==> !HasKey(es, k)
    ensures r.Some? ==> (k, r.value) in es
    decreases |es|
  {
    if es == [] then None
    else if es[0].0 == k then Some(es[0].1)
    else
      HasKeyTail(es, k);
      Get(es[1..], k)
  }

  /** Past a first entry with another key, the key is present exactly when it is in the rest. */
  lemma HasKeyTail(es: Entries, k: string)
    requires es != [] && es[0].0 != k
    ensures HasKey(es, k) <==> HasKey(es[1..], k)
  {
    if HasKey(es, k) {
      var i :| 0 <= i < |es| && es[i].0 == k;
      assert es[1..][i - 1].0 == k;
    }
    if HasKey(es[1..], k) {
      var i :| 0 <= i < |es[1..]| && es[1..][i].0 == k;
      assert es[i + 1].0 == k;
    }
  }

  lemma KeysCons(e: (string, Node), es: Entries)
    ensures Keys([e] + es) == [e.0] + Keys(es)
  {
  }

  /** `$a[$k] = $v`. */
  function Put(es: Entries, k: string, v: Node): (r: Entries)
    decreases |es|
  {
    if es == [] then [(k, v)]
    else if es[0].0 == k then [(k, v)] + es[1..]
    else [es[0]] + Put(es[1..], k, v)
  }

  /** The assigned key reads back the new value and every other key reads as before. */
  lemma {:induction false} PutGet(es: Entries, k: string, v: Node, k': string)
    ensures Get(Put(es, k, v), k) == Some(v)
    ensures k' != k ==> Get(Put(es, k, v), k') == Get(es, k')
    decreases |es|
  {
    if es != [] {
      PutGet(es[1..], k, v, k');
      var r := Put(es, k, v);
      if es[0].0 == k {
        assert r[1..] == es[1..];
      } else {
        assert r[1..] == Put(es[1..], k, v);
      }
    }
  }

  /** A key already present keeps its place; a new key is appended at the end. */
  lemma {:induction false} PutPlace(es: Entries, k: string, v: Node)
    ensures HasKey(es, k) ==> Keys(Put(es, k, v)) == Keys(es)
    ensures !HasKey(es, k) ==> Put(es, k, v) == es + [(k, v)]
    decreases |es|
  {
    if es != [] {
      assert es == [es[0]] + es[1..];
      KeysCons(es[0], es[1..]);
      if es[0].0 == k {
        KeysCons((k, v), es[1..]);
      } else {
        PutPlace(es[1..], k, v);
        HasKeyTail(es, k);
        KeysCons(es[0], Put(es[1..], k, v));
      }
    }
  }

  /** Assignment keeps the keys distinct. */
  lemma PutDistinct(es: Entries, k: string, v: Node)
    requires DistinctKeys(es)
    ensures DistinctKeys(Put(es, k, v))
  {
    PutPlace(es, k, v);
    var r := Put(es, k, v);
    if HasKey(es, k) {
      assert |r| == |Keys(r)| == |Keys(es)| == |es|;
      forall i, j | 0 <= i < j < |r| ensures r[i].0 != r[j].0 {
        assert r[i].0 == Keys(r)[i] == es[i].0;
        assert r[j].0 == Keys(r)[j] == es[j].0;
      }
    } else {
      forall i, j | 0 <= i < j < |r| ensures r[i].0 != r[j].0 {
        if j == |es| {
          assert r[i] == es[i];
        } else {
          assert r[i] == es[i] && r[j] == es[j];
        }
      }
    }
  }

  /**
   * `array_merge($a, $b)` for arrays with string keys: the entries of `b`
   * are assigned into a copy of `a` one after another.
   */
  function ArrayMerge(a: Entries, b: Entries): Entries
    decreases |b|
  {
    if b == [] then a else ArrayMerge(Put(a, b[0].0, b[0].1), b[1..])
  }

  /**
   * After `array_merge($a, $b)` every key of `b` has `b`'s value, every other
   * key keeps `a`'s, and `a`'s keys come first in their old order.
   */
  lemma {:induction false} ArrayMergeGet(a: Entries, b: Entries, k: string)
    requires DistinctKeys(b)
    ensures Get(ArrayMerge(a, b), k) == if HasKey(b, k) then Get(b, k) else Get(a, k)
    decreases |b|
  {
    if b != [] {
      var a' := Put(a, b[0].0, b[0].1);
      PutGet(a, b[0].0, b[0].1, k);
      assert DistinctKeys(b[1..]);
      ArrayMergeGet(a', b[1..], k);
      if k == b[0].0 {
        forall j | 0 <= j < |b[1..]| ensures b[1..][j].0 != k {
          assert b[1..][j] == b[j + 1];
        }
      } else {
        assert HasKey(b, k) <==> HasKey(b[1..], k) by {
          if HasKey(b, k) {
            var i :| 0 <= i < |b| && b[i].0 == k;
            assert b[1..][i - 1].0 == k;
          }
          if HasKey(b[1..], k) {
            var i :| 0 <= i < |b[1..]| && b[1..][i].0 == k;
            assert b[i + 1].0 == k;
          }
        }
      }
    }
  }

  /** `array_merge` keeps the keys of its first argument first, in their order. */
  lemma {:induction false} ArrayMergeKeepsOrder(a: Entries, b: Entries)
    ensures |a| <= |ArrayMerge(a, b)| && Keys(ArrayMerge(a, b))[..|a|] == Keys(a)
    decreases |b|
  {
    if b != [] {
      var a' := Put(a, b[0].0, b[0].1);
      PutPlace(a, b[0].0, b[0].1);
      ArrayMergeKeepsOrder(a', b[1..]);
      assert |a| <= |a'| && Keys(a')[..|a|] == Keys(a) by {
        if !HasKey(a, b[0].0) {
          assert Keys(a') == Keys(a) + [b[0].0];
        } else {
          assert |a'| == |Keys(a')| == |Keys(a)| == |a|;
        }
      }
      assert Keys(ArrayMerge(a', b[1..]))[..|a'|][..|a|] == Keys(a')[..|a|];
    }
  }

  /** PHP truthiness of `$x ?? null`: null, "", "0" and the empty array are false. */
  predicate Truthy(v: Option<Node>) {
    match v
    case None => false
    case Some(Leaf(s)) => s != "" && s != "0"
    case Some(Branch(cs)) => cs != []
  }

  /** The single-key chain `[k1 => [k2 => … [kn => t]]]`, a bare string when there are no keys. */
  function Nest(ks: seq<string>, t: string): Node
    decreases |ks|
  {
    if ks == [] then Leaf(t) else Branch([(ks[0], Nest(ks[1..], t))])
  }

  /** Prefixes one key to every path. */
  function Under(k: string, ls: seq<LeafPath>): seq<LeafPath> {
    seq(|ls|, i requires 0 <= i < |ls| => ([k] + ls[i].0, ls[i].1))
  }

  /** The leaves of the first `n` entries, depth first, in iteration order. */
  function LeavesUpTo(es: Entries, n: nat): seq<LeafPath>
    requires n <= |es|
    decreases Branch(es), 0, n
  {
    if n == 0 then [] else LeavesUpTo(es, n - 1) + EntryLeaves(es[n - 1].0, es[n - 1].1)
  }

  /** The leaves under one entry `k => v`. */
  function EntryLeaves(k: string, v: Node): seq<LeafPath>
    decreases v, 1
  {
    match v
    case Leaf(t) => [([k], t)]
    case Branch(cs) => Under(k, LeavesUpTo(cs, |cs|))
  }

  function Leaves(es: Entries): seq<LeafPath> {
    LeavesUpTo(es, |es|)
  }

  /** Every leaf path is non-empty and begins with the key of a top-level entry. */
  lemma {:induction false} LeafPathsStartAtTop(es: Entries, n: nat)
    requires n <= |es|
    ensures forall i :: 0 <= i < |LeavesUpTo(es, n)| ==>
              |LeavesUpTo(es, n)[i].0| > 0 && LeavesUpTo(es, n)[i].0[0] in Keys(es[..n])
  {
    if n > 0 {
      LeafPathsStartAtTop(es, n - 1);
      var ls := LeavesUpTo(es, n);
      var prev := LeavesUpTo(es, n - 1);
      assert Keys(es[..n]) == Keys(es[..n - 1]) + [es[n - 1].0];
      forall i | 0 <= i < |ls| ensures |ls[i].0| > 0 && ls[i].0[0] in Keys(es[..n]) {
        if i < |prev| {
          assert ls[i] == prev[i];
          assert ls[i].0[0] in Keys(es[..n - 1]);
        } else {
          var el := EntryLeaves(es[n - 1].0, es[n - 1].1);
          assert ls[i] == el[i - |prev|];
          assert ls[i].0[0] == es[n - 1].0;
        }
      }
    }
  }

  /** A tree with no nested arrays has one leaf per entry, with its own key as path. */
  predicate Flat(es: Entries) {
    forall i :: 0 <= i < |es| ==> es[i].1.Leaf?
  }

  lemma {:induction false} FlatLeaves(es: Entries, n: nat)
    requires Flat(es) && n <= |es|
    ensures |LeavesUpTo(es, n)| == n
    ensures forall i :: 0 <= i < n ==> LeavesUpTo(es, n)[i] == ([es[i].0], es[i].1.text)
  {
    if n > 0 {
      FlatLeaves(es, n - 1);
    }
  }
}

=== FILE: php_string.dfy ===
/**
 * The PHP string built-ins the command relies on, written out over
 * `seq<char>`: `str_replace` (one search string, and an array of search
 * strings), `trim`, `strtoupper` and the `\w` character class of PCRE.
 */
module PhpString {

  datatype Option<T> = None | Some(value: T)

  /** `s` begins with `prefix`. */
  predicate StartsWith(s: string, prefix: string) {
    |prefix| <= |s| && s[..|prefix|] == prefix
  }

  /** `w` occurs somewhere in `s` (the empty string occurs everywhere). */
  predicate Occurs(w: string, s: string)
    decreases |s|
  {
    |w| <= |s| && (s[..|w|] == w || Occurs(w, s[1..]))
  }

  /** A position found in a suffix, seen from `d` characters earlier. */
  function ShiftBy(d: nat, o: Option<nat>): Option<nat> {
    match o
    case None => None
    case Some(i) => Some(d + i)
  }

  /** The position of the first occurrence of `w` in `s`. */
  function Find(s: string, w: string): (r: Option<nat>)
    ensures r.Some? ==> r.value + |w| <= |s|
    decreases |s|
  {
    if |s| < |w| then None
    else if s[..|w|] == w then Some(0)
    else match Find(s[1..], w)
      case None => None
      case Some(j) => Some(j + 1)
  }

  /** The search finds `w` exactly where it reports it, and fails exactly when `w` is absent. */
  lemma {:induction false} FindSound(s: string, w: string)
    ensures Find(s, w).Some? ==> s[Find(s, w).value..Find(s, w).value + |w|] == w
    ensures Find(s, w).None? <==> !Occurs(w, s)
    decreases |s|
  {
    if |s| >= |w| && s[..|w|] != w {
      FindSound(s[1..], w);
      match Find(s[1..], w)
      case None =>
      case Some(j) =>
        assert s[j + 1..j + 1 + |w|] == s[1..][j..j + |w|];
    }
  }

  /** `w` occurs in `s` at position `p`. */
  predicate MatchAt(s: string, w: string, p: nat) {
    p + |w| <= |s| && AgreeFrom(s, w, p, 0)
  }

  /** The characters of `w` from index `k` on equal those of `s` from `p + k` on. */
  predicate AgreeFrom(s: string, w: string, p: nat, k: nat)
    requires p + |w| <= |s| && k <= |w|
    decreases |w| - k
  {
    k == |w| || (s[p + k] == w[k] && AgreeFrom(s, w, p, k + 1))
  }

  lemma {:induction false} AgreeFromSlice(s: string, w: string, p: nat, k: nat)
    requires p + |w| <= |s| && k <= |w|
    ensures AgreeFrom(s, w, p, k) <==> s[p + k..p + |w|] == w[k..]
    decreases |w| - k
  {
    if k < |w| {
      AgreeFromSlice(s, w, p, k + 1);
      assert s[p + k..p + |w|] == [s[p + k]] + s[p + k + 1..p + |w|];
      assert w[k..] == [w[k]] + w[k + 1..];
    }
  }

  /** `MatchAt` compares the slice of `s` at `p` with `w`. */
  lemma MatchAtSlice(s: string, w: string, p: nat)
    ensures MatchAt(s, w, p) <==> p + |w| <= |s| && s[p..p + |w|] == w
  {
    if p + |w| <= |s| {
      AgreeFromSlice(s, w, p, 0);
    }
  }

  /** The first position at or after `p` where `w` occurs in `s`. */
  function FindFrom(s: string, w: string, p: nat): (r: Option<nat>)
    requires p <= |s|
    ensures r.Some? ==> p <= r.value && r.value + |w| <= |s|
    decreases |s| - p
  {
    if MatchAt(s, w, p) then Some(p)
    else if p == |s| then None
    else FindFrom(s, w, p + 1)
  }

  /** A position found from `p` holds `w`, and `w` starts nowhere between `p` and it. */
  lemma {:induction false} FindFromFirst(s: string, w: string, p: nat)
    requires p <= |s|
    ensures FindFrom(s, w, p).Some? ==> s[FindFrom(s, w, p).value..FindFrom(s, w, p).value + |w|] == w
    ensures FindFrom(s, w, p).Some? ==> forall q :: p <= q < FindFrom(s, w, p).value ==> !MatchAt(s, w, q)
    decreases |s| - p
  {
    MatchAtSlice(s, w, p);
    if !MatchAt(s, w, p) && p < |s| {
      FindFromFirst(s, w, p + 1);
    }
  }

  /** Searching from `p` is searching the suffix that starts at `p`. */
  lemma {:induction false} FindFromSuffix(s: string, w: string, p: nat)
    requires p <= |s|
    ensures FindFrom(s, w, p) == ShiftBy(p, Find(s[p..], w))
    decreases |s| - p
  {
    var t := s[p..];
    MatchAtSlice(s, w, p);
    if p + |w| <= |s| {
      assert t[..|w|] == s[p..p + |w|];
    }
    if !MatchAt(s, w, p) && p < |s| {
      FindFromSuffix(s, w, p + 1);
      assert t[1..] == s[p + 1..];
    }
  }

  /** Searching `s` from `q + p` is searching its suffix `z = s[q..]` from `p`. */
  lemma {:induction false} FindFromShift(s: string, z: string, w: string, q: nat, p: nat)
    requires q <= |s| && s[q..] == z && p <= |z|
    ensures FindFrom(s, w, q + p) == ShiftBy(q, FindFrom(z, w, p))
    decreases |z| - p
  {
    assert MatchAt(s, w, q + p) == MatchAt(z, w, p) by {
      MatchAtSlice(s, w, q + p);
      MatchAtSlice(z, w, p);
      if q + p + |w| <= |s| {
        SliceShift(s, z, q, p, p + |w|);
      }
    }
    if !MatchAt(z, w, p) && p < |z| {
      FindFromShift(s, z, w, q, p + 1);
    }
  }

  /** A slice of the suffix `z = s[q..]` is the slice of `s` moved by `q`. */
  lemma SliceShift(s: string, z: string, q: nat, b: nat, e: nat)
    requires q <= |s| && s[q..] == z && b <= e <= |z|
    ensures s[q + b..q + e] == z[b..e]
  {
    forall i | 0 <= i < e - b
      ensures s[q + b..q + e][i] == z[b..e][i]
    {
      assert z[b + i] == s[q + b + i];
    }
  }

  /**
   * `str_replace($search, $rep, $s)` for one search string: every occurrence
   * found scanning left to right, without overlaps, is replaced; an empty
   * search string leaves the subject unchanged.
   */
  function ReplaceAll(s: string, search: string, rep: string): string
    decreases |s|
  {
    if |search| == 0 || |s| < |search| then s
    else if s[..|search|] == search then rep + ReplaceAll(s[|search|..], search, rep)
    else [s[0]] + ReplaceAll(s[1..], search, rep)
  }

  /** `str_replace($searches, $rep, $s)` for an array of search strings: each is applied in turn to the result of the previous one. */
  function ReplaceEach(s: string, searches: seq<string>, rep: string): string
    decreases |searches|
  {
    if searches == [] then s else ReplaceEach(ReplaceAll(s, searches[0], rep), searches[1..], rep)
  }

  /** A subject in which the search string does not occur is returned unchanged. */
  lemma {:induction false} ReplaceAllAbsent(s: string, search: string, rep: string)
    requires !Occurs(search, s)
    ensures ReplaceAll(s, search, rep) == s
    decreases |s|
  {
    if |search| > 0 && |s| >= |search| {
      ReplaceAllAbsent(s[1..], search, rep);
    }
  }

  /** Removing occurrences never lengthens a string. */
  lemma {:induction false} RemoveAllShorter(s: string, search: string)
    ensures |ReplaceAll(s, search, "")| <= |s|
    ensures |search| > 0 && Occurs(search, s) ==> |ReplaceAll(s, search, "")| < |s|
    decreases |s|
  {
    if |search| > 0 && |s| >= |search| {
      if s[..|search|] == search {
        RemoveAllShorter(s[|search|..], search);
      } else {
        RemoveAllShorter(s[1..], search);
      }
    }
  }

  /** A prefix that cannot start a match is copied through unchanged. */
  lemma {:induction false} ReplaceAllSkip(u: string, y: string, search: string, rep: string)
    requires |search| > 0
    requires forall i :: 0 <= i < |u| ==> u[i] != search[0]
    ensures ReplaceAll(u + y, search, rep) == u + ReplaceAll(y, search, rep)
    decreases |u|
  {
    var s := u + y;
    if |u| > 0 {
      if |s| < |search| {
        assert ReplaceAll(y, search, rep) == y;
      } else {
        assert s[..|search|][0] != search[0];
        assert s[1..] == u[1..] + y;
        ReplaceAllSkip(u[1..], y, search, rep);
        assert ReplaceAll(s, search, rep) == [u[0]] + ReplaceAll(s[1..], search, rep);
      }
    } else {
      assert s == y;
    }
  }

  /** Where no match starts, the first character is copied and the scan moves on by one. */
  lemma ReplaceAllStep(s: string, search: string, rep: string)
    requires |search| > 0 && |s| > 0 && !StartsWith(s, search)
    ensures ReplaceAll(s, search, rep) == [s[0]] + ReplaceAll(s[1..], search, rep)
  {
    if |s| < |search| {
      ReplaceAllAbsentShort(s[1..], search, rep);
    }
  }

  /** A match at the front is replaced and the scan resumes after it. */
  lemma ReplaceAtFront(w: string, y: string, rep: string)
    requires |w| > 0
    ensures ReplaceAll(w + y, w, rep) == rep + ReplaceAll(y, w, rep)
  {
    var s := w + y;
    assert s[..|w|] == w && s[|w|..] == y;
  }

  /** A stretch that cannot start a match is copied, then the match right after it is replaced. */
  lemma SkipThenFront(u: string, w: string, y: string, rep: string)
    requires |w| > 0
    requires forall i :: 0 <= i < |u| ==> u[i] != w[0]
    ensures ReplaceAll(u + (w + y), w, rep) == u + (rep + ReplaceAll(y, w, rep))
  {
    ReplaceAllSkip(u, w + y, w, rep);
    ReplaceAtFront(w, y, rep);
  }

  /**
   * A stretch that cannot start a match, then a string `w` that starts with
   * the first character of the search but is not followed by the rest of it:
   * both are copied and the scan goes on after `w`.
   */
  lemma SkipPastNearMiss(u: string, w: string, y: string, v: string, rep: string)
    requires |v| > 0 && |w| > 0
    requires forall i :: 0 <= i < |u| ==> u[i] != v[0]
    requires forall i :: 1 <= i < |w| ==> w[i] != v[0]
    requires !StartsWith(w + y, v)
    ensures ReplaceAll(u + (w + y), v, rep) == u + (w + ReplaceAll(y, v, rep))
  {
    ReplaceAllSkip(u, w + y, v, rep);
    NearMiss(w, y, v, rep);
  }

  /** A near miss `w` at the front is copied whole and the scan goes on after it. */
  lemma NearMiss(w: string, y: string, v: string, rep: string)
    requires |v| > 0 && |w| > 0
    requires forall i :: 1 <= i < |w| ==> w[i] != v[0]
    requires !StartsWith(w + y, v)
    ensures ReplaceAll(w + y, v, rep) == w + ReplaceAll(y, v, rep)
  {
    var c, w', r := w[0], w[1..], ReplaceAll(y, v, rep);
    assert ReplaceAll(w' + y, v, rep) == w' + r by {
      TailAvoids(w, v[0]);
      ReplaceAllSkip(w', y, v, rep);
    }
    assert ReplaceAll(w + y, v, rep) == [c] + ReplaceAll(w' + y, v, rep) by {
      assert w + y == [c] + (w' + y);
      ReplaceAllCons(c, w' + y, v, rep);
    }
    assert w + r == [c] + (w' + r) by {
      assert w == [c] + w';
    }
  }

  /** `ReplaceAllStep` with the first character and the rest given apart. */
  lemma ReplaceAllCons(c: char, t: string, search: string, rep: string)
    requires |search| > 0 && !StartsWith([c] + t, search)
    ensures ReplaceAll([c] + t, search, rep) == [c] + ReplaceAll(t, search, rep)
  {
    ReplaceAllStep([c] + t, search, rep);
    assert ([c] + t)[1..] == t;
  }

  lemma TailAvoids(w: string, c: char)
    requires |w| > 0 && forall i :: 1 <= i < |w| ==> w[i] != c
    ensures forall i :: 0 <= i < |w[1..]| ==> w[1..][i] != c
  {
    forall i | 0 <= i < |w[1..]| ensures w[1..][i] != c {
      assert w[1..][i] == w[i + 1];
    }
  }

  /** Regrouping of a concatenation, kept out of line so that its callers' proofs see only this equation (the replacement inside a frame in `ReplaceTwoInFrame`). */
  lemma Assoc5(a: string, b: string, c: string, d: string, e: string)
    ensures a + b + c + d + e == a + (b + (c + (d + e)))
  {
  }

  /** Two copies of `w` between stretches that cannot start a match are both replaced, and nothing else is. */
  lemma ReplaceTwoInFrame(a: string, w: string, b: string, c: string, rep: string)
    requires |w| > 0
    requires forall i :: 0 <= i < |a| ==> a[i] != w[0]
    requires forall i :: 0 <= i < |b| ==> b[i] != w[0]
    requires forall i :: 0 <= i < |c| ==> c[i] != w[0]
    ensures ReplaceAll(a + w + b + w + c, w, rep) == a + rep + b + rep + c
  {
    ReplaceAllSkip(c, "", w, rep);
    assert c + "" == c;
    SkipThenFront(b, w, c, rep);
    var t := b + (w + c);
    assert ReplaceAll(t, w, rep) == b + (rep + c);
    SkipThenFront(a, w, t, rep);
    assert ReplaceAll(a + (w + t), w, rep) == a + (rep + (b + (rep + c)));
    Assoc5(a, w, b, w, c);
    Assoc5(a, rep, b, rep, c);
  }

  lemma ReplaceAllAbsentShort(s: string, search: string, rep: string)
    requires |s| < |search|
    ensures ReplaceAll(s, search, rep) == s
  {
  }

  /**
   * The only occurrence of `w` in `a + w + b` is the one between `a` and `b`,
   * provided `w` is not found in `a` or `b` and the last character of `a`
   * does not occur in `w` (so no match can straddle the boundary).
   */
  lemma {:induction false} RemoveIsolated(a: string, w: string, b: string)
    requires !Occurs(w, a) && !Occurs(w, b)
    requires |a| > 0 ==> a[|a| - 1] !in w
    ensures ReplaceAll(a + w + b, w, "") == a + b
    decreases |a|
  {
    var s := a + w + b;
    if |a| == 0 {
      assert s == w + b && s[..|w|] == w && s[|w|..] == b;
      ReplaceAllAbsent(b, w, "");
    } else {
      assert ReplaceAll(s, w, "") == [a[0]] + ReplaceAll(s[1..], w, "") by {
        NoMatchAtJoin(a, w, b);
        ReplaceAllStep(s, w, "");
      }
      assert s[1..] == a[1..] + w + b;
      assert ReplaceAll(a[1..] + w + b, w, "") == a[1..] + b by {
        assert !Occurs(w, a[1..]);
        RemoveIsolated(a[1..], w, b);
      }
      assert [a[0]] + (a[1..] + b) == a + b;
    }
  }

  /** No match of `w` starts at the front of `a + w + b` when `w` is not in `a` and cannot straddle its end. */
  lemma NoMatchAtJoin(a: string, w: string, b: string)
    requires |a| > 0 && !Occurs(w, a) && a[|a| - 1] !in w
    ensures |w| > 0 && !StartsWith(a + w + b, w)
  {
    var s := a + w + b;
    if |w| <= |a| {
      assert s[..|w|] == a[..|w|];
    } else {
      assert s[..|w|][|a| - 1] == a[|a| - 1];
    }
  }

  /** The first occurrence of `w` in `u + w + y` is the one right after `u` when no character of `u` could start it. */
  lemma {:induction false} FindAfter(u: string, w: string, y: string)
    requires |w| > 0
    requires forall i :: 0 <= i < |u| ==> u[i] != w[0]
    ensures Find(u + w + y, w) == Some(|u|)
    decreases |u|
  {
    var s := u + w + y;
    if |u| == 0 {
      assert s[..|w|] == w;
    } else {
      assert s[1..] == u[1..] + w + y;
      FindAfter(u[1..], w, y);
    }
  }

  /** Characters that cannot start `w` are passed over by the search. */
  lemma {:induction false} FindSkip(u: string, z: string, w: string)
    requires |w| > 0
    requires forall i :: 0 <= i < |u| ==> u[i] != w[0]
    ensures Find(u + z, w) == ShiftBy(|u|, Find(z, w))
    decreases |u|
  {
    if |u| > 0 {
      var s := u + z;
      assert s[1..] == u[1..] + z;
      FindSkip(u[1..], z, w);
      if |w| <= |s| {
        assert s[..|w|][0] == u[0];
      }
    } else {
      assert u + z == z;
    }
  }

  /** The characters PHP's `trim` removes by default: space, tab, newline, carriage return, NUL and vertical tab. */
  predicate IsTrimmed(c: char) {
    c == ' ' || c == '\t' || c == '\n' || c == '\r' || c == '\0' || c == '\U{0B}'
  }

  function TrimStart(s: string): string
    decreases |s|
  {
    if |s| > 0 && IsTrimmed(s[0]) then TrimStart(s[1..]) else s
  }

  function TrimEnd(s: string): string
    decreases |s|
  {
    if |s| > 0 && IsTrimmed(s[|s| - 1]) then TrimEnd(s[..|s| - 1]) else s
  }

  /** PHP's `trim($s)`. */
  function Trim(s: string): string {
    TrimEnd(TrimStart(s))
  }

  /** `trim` removes only trimmable characters, from both ends, and leaves none there. */
  lemma {:induction false} TrimIsInfix(s: string)
    ensures exists i, j ::
              && 0 <= i <= j <= |s| && Trim(s) == s[i..j]
              && (forall k :: 0 <= k < i ==> IsTrimmed(s[k]))
              && (forall k :: j <= k < |s| ==> IsTrimmed(s[k]))
    ensures |Trim(s)| > 0 ==> !IsTrimmed(Trim(s)[0]) && !IsTrimmed(Trim(s)[|Trim(s)| - 1])
  {
    var i := TrimStartFrom(s);
    var t := s[i..];
    var j := TrimEndTo(t);
    assert Trim(s) == s[i..i + j];
    forall k | i + j <= k < |s| ensures IsTrimmed(s[k]) {
      assert s[k] == t[k - i];
    }
  }

  lemma {:induction false} TrimStartFrom(s: string) returns (i: nat)
    ensures i <= |s| && TrimStart(s) == s[i..]
    ensures forall k :: 0 <= k < i ==> IsTrimmed(s[k])
    ensures i < |s| ==> !IsTrimmed(s[i])
    decreases |s|
  {
    if |s| > 0 && IsTrimmed(s[0]) {
      var i' := TrimStartFrom(s[1..]);
      i := i' + 1;
      assert s[1..][i'..] == s[i..];
      forall k | 0 <= k < i ensures IsTrimmed(s[k]) {
        if k > 0 { assert s[k] == s[1..][k - 1]; }
      }
    } else {
      i := 0;
    }
  }

  lemma {:induction false} TrimEndTo(s: string) returns (j: nat)
    ensures j <= |s| && TrimEnd(s) == s[..j]
    ensures forall k :: j <= k < |s| ==> IsTrimmed(s[k])
    ensures j > 0 ==> !IsTrimmed(s[j - 1])
    decreases |s|
  {
    if |s| > 0 && IsTrimmed(s[|s| - 1]) {
      j := TrimEndTo(s[..|s| - 1]);
      assert s[..|s| - 1][..j] == s[..j];
    } else {
      j := |s|;
    }
  }

  /** PCRE's `\w` without the `u` modifier: ASCII letters, digits and underscore. */
  predicate IsWordChar(c: char) {
    ('a' <= c <= 'z') || ('A' <= c <= 'Z') || ('0' <= c <= '9') || c == '_'
  }

  function UpperChar(c: char): char {
    if 'a' <= c <= 'z' then (c as int - 32) as char else c
  }

  /** PHP 8's `strtoupper`: ASCII lower-case letters are upper-cased, every other character is kept. */
  function Upper(s: string): string {
    seq(|s|, i requires 0 <= i < |s| => UpperChar(s[i]))
  }
}

=== FILE: settings.dfy ===
/**
 * The settings check run before any translation: the DeepL URL and API key
 * must be configured, and the source and target language codes must be on
 * the list of languages DeepL accepts, with no target repeated and none
 * equal to the source.
 */
module Settings {
  import opened PhpString

  /** `$possibleTranslationLanguages`, in its order (`ZH` is listed twice). */
  const PossibleTranslationLanguages: seq<string> := [
    "BG", "CS", "DA", "DE", "EL", "EN-GB", "EN-US", "EN", "ES", "ET", "FI",
    "FR", "HU", "IT", "JA", "LT", "LV", "NL", "PL", "PT-PT", "PT-BR", "PT",
    "RO", "RU", "SK", "SL", "SV", "ZH", "TR", "KO", "ZH", "ZH-HANS", "ZH-HANT"
  ]

  /** `in_array($code, $possibleTranslationLanguages)`. */
  predicate Allowed(code: string) {
    ListedFrom(code, PossibleTranslationLanguages, 0)
  }

  /** `x` occurs in `xs` at index `k` or later. */
  predicate ListedFrom(x: string, xs: seq<string>, k: nat)
    decreases |xs| - k
  {
    k < |xs| && (xs[k] == x || ListedFrom(x, xs, k + 1))
  }

  /** `ListedFrom` is membership in the suffix from `k`, so `Allowed` is membership in the list. */
  lemma {:induction false} ListedFromIn(x: string, xs: seq<string>, k: nat)
    requires k <= |xs|
    ensures ListedFrom(x, xs, k) <==> x in xs[k..]
    decreases |xs| - k
  {
    if k < |xs| {
      ListedFromIn(x, xs, k + 1);
      assert xs[k..] == [xs[k]] + xs[k + 1..];
    }
  }

  /** The `to` argument: one language code, or an array of them. */
  datatype Target = Single(lang: string) | Many(langs: seq<string>)

  /** `if (!is_array($to)) $to = [$to];` */
  function Targets(to: Target): (ts: seq<string>)
    ensures to.Single? ==> ts == [to.lang]
    ensures to.Many? ==> ts == to.langs
  {
    match to
    case Single(l) => [l]
    case Many(ls) => ls
  }

  /** A configuration value that PHP reads as true: present, and neither `""` nor `"0"`. */
  predicate Configured(v: Option<string>) {
    v.Some? && v.value != "" && v.value != "0"
  }

  predicate NoDuplicates(xs: seq<string>) {
    forall i, j :: 0 <= i < j < |xs| ==> xs[i] != xs[j]
  }

  /** `array_unique($xs)`: the first occurrence of every value, in order. */
  function ArrayUnique(xs: seq<string>): seq<string>
    decreases |xs|
  {
    if xs == [] then []
    else
      var r := ArrayUnique(xs[..|xs| - 1]);
      if xs[|xs| - 1] in r then r else r + [xs[|xs| - 1]]
  }

  /** `array_unique` keeps every value, no more than once, and never lengthens the list. */
  lemma {:induction false} ArrayUniqueValues(xs: seq<string>)
    ensures forall x :: x in ArrayUnique(xs) <==> x in xs
    ensures NoDuplicates(ArrayUnique(xs))
    ensures |ArrayUnique(xs)| <= |xs|
    decreases |xs|
  {
    if xs != [] {
      var p := xs[..|xs| - 1];
      ArrayUniqueValues(p);
      assert xs == p + [xs[|xs| - 1]];
      var r := ArrayUnique(p);
      if xs[|xs| - 1] !in r {
        var u := r + [xs[|xs| - 1]];
        forall i, j | 0 <= i < j < |u| ensures u[i] != u[j] {
          assert u[i] == r[i];
        }
      }
    }
  }

  /** `count($xs) === count(array_unique($xs))` holds exactly when no value is repeated. */
  lemma {:induction false} ArrayUniqueCount(xs: seq<string>)
    ensures |ArrayUnique(xs)| == |xs| <==> NoDuplicates(xs)
    decreases |xs|
  {
    if xs != [] {
      var p, last := xs[..|xs| - 1], xs[|xs| - 1];
      ArrayUniqueCount(p);
      ArrayUniqueValues(p);
      assert xs == p + [last];
      if NoDuplicates(xs) {
        assert NoDuplicates(p) by {
          forall i, j | 0 <= i < j < |p| ensures p[i] != p[j] {
            assert p[i] == xs[i] && p[j] == xs[j];
          }
        }
        assert last !in p by {
          forall i | 0 <= i < |p| ensures p[i] != last {
            assert p[i] == xs[i];
          }
        }
      }
      if |ArrayUnique(xs)| == |xs| {
        assert last !in ArrayUnique(p);
        forall i, j | 0 <= i < j < |xs| ensures xs[i] != xs[j] {
          if j == |xs| - 1 {
            assert xs[i] == p[i];
          } else {
            assert xs[i] == p[i] && xs[j] == p[j];
          }
        }
      }
    }
  }

  /** What `checkSettings` accepts: every guard of the method passes. */
  predicate SettingsOk(url: Option<string>, apiKey: Option<string>, from: string, to: Target) {
    var ts := Targets(to);
    && Configured(url)
    && Configured(apiKey)
    && Allowed(Upper(from))
    && NoDuplicates(ts)
    && forall i :: 0 <= i < |ts| ==> ts[i] != from && Allowed(Upper(ts[i]))
  }

  /**
   * `checkSettings($from, $to)`, with the configured URL and API key as
   * parameters: `false` at the first guard that fails, `true` otherwise.
   */
  method CheckSettings(url: Option<string>, apiKey: Option<string>, from: string, to: Target) returns (ok: bool)
    ensures ok <==> SettingsOk(url, apiKey, from, to)
  {
    if !Configured(url) {
      return false;
    }
    if !Configured(apiKey) {
      return false;
    }
    var ts := Targets(to);
    if !Allowed(Upper(from)) {
      return false;
    }
    ArrayUniqueCount(ts);
    if |ts| != |ArrayUnique(ts)| {
      return false;
    }
    var i := 0;
    while i < |ts|
      invariant 0 <= i <= |ts|
      invariant forall j :: 0 <= j < i ==> ts[j] != from && Allowed(Upper(ts[j]))
    {
      if from == ts[i] {
        return false;
      }
      if !Allowed(Upper(ts[i])) {
        return false;
      }
      i := i + 1;
    }
    return true;
  }

  /** A single target behaves exactly like a one-element target array. */
  lemma SingleLikeList(url: Option<string>, apiKey: Option<string>, from: string, t: string)
    ensures SettingsOk(url, apiKey, from, Single(t)) <==> SettingsOk(url, apiKey, from, Many([t]))
  {
  }

  /** A repeated target is rejected, whatever else holds. */
  lemma {:induction false} DuplicateTargetRejected(url: Option<string>, apiKey: Option<string>, from: string, ts: seq<string>, i: nat, j: nat)
    requires i < j < |ts| && ts[i] == ts[j]
    ensures !SettingsOk(url, apiKey, from, Many(ts))
  {
  }

  /**
   * The source is compared with each target as written, so a target that
   * differs from the source only in letter case passes: `de` into `DE` is
   * accepted once the URL and key are configured.
   */
  lemma CaseOnlyTargetAccepted(url: Option<string>, apiKey: Option<string>)
    requires Configured(url) && Configured(apiKey)
    ensures SettingsOk(url, apiKey, "de", Single("DE"))
  {
    UpperDe();
    GermanListed();
    assert "de"[0] != "DE"[0];
  }

  lemma UpperDe()
    ensures Upper("de") == "DE" && Upper("DE") == "DE"
  {
    var u := Upper("de");
    assert u[0] == 'D' && u[1] == 'E';
    var v := Upper("DE");
    assert v[0] == 'D' && v[1] == 'E';
  }

  lemma GermanListed()
    ensures Allowed("DE")
  {
    var l := PossibleTranslationLanguages;
    assert l[3] == "DE";
    assert ListedFrom("DE", l, 3);
    assert ListedFrom("DE", l, 2);
    assert ListedFrom("DE", l, 1);
  }

  /** A target written exactly like the source is rejected. */
  lemma SourceAsTargetRejected(url: Option<string>, apiKey: Option<string>, from: string, ts: seq<string>, i: nat)
    requires i < |ts| && ts[i] == from
    ensures !SettingsOk(url, apiKey, from, Many(ts))
  {
  }

  /** An empty target array passes the check once the source language and configuration do. */
  lemma EmptyTargetsAccepted(url: Option<string>, apiKey: Option<string>, from: string)
    requires Configured(url) && Configured(apiKey) && Allowed(Upper(from))
    ensures SettingsOk(url, apiKey, from, Many([]))
  {
  }
}

=== FILE: tags.dfy ===
/**
 * `everything_in_tags($string, $tagname)`: the texts that `preg_match_all`
 * captures between an opening `<tagname>` and the next closing
 * `</tagname>`, scanning the subject from left to right.
 */
module Tags {
  import opened PhpString
  import opened Markup

  /**
   * Every text enclosed by `<tag>` and `</tag>` in `s`, in order. Each one
   * stands in `s` right after a `<tag>` and right before a `</tag>`, and no
   * `</tag>` starts inside it: the capture `(.*?)` is lazy.
   */
  function InTags(s: string, tag: string): (r: seq<string>)
    ensures forall i :: 0 <= i < |r| ==> Enclosed(s, TagText(tag), TagText("/" + tag), r[i])
  {
    BetweenEnclosed(s, TagText(tag), TagText("/" + tag), 0);
    Between(s, TagText(tag), TagText("/" + tag), 0)
  }

  /** `c` stands in `s` between an `open` and the first `close` after it. */
  ghost predicate Enclosed(s: string, open: string, close: string, c: string) {
    exists b: nat :: EnclosedAt(s, open, close, c, b)
  }

  predicate EnclosedAt(s: string, open: string, close: string, c: string, b: nat) {
    && |open| <= b && b + |c| + |close| <= |s|
    && s[b - |open|..b] == open && s[b..b + |c|] == c && s[b + |c|..b + |c| + |close|] == close
    && forall q :: b <= q < b + |c| ==> !MatchAt(s, close, q)
  }

  /**
   * The next match at or after `p`: the first `open`, then the first `close`
   * after it. The result is where the captured text starts and ends.
   */
  function Next(s: string, open: string, close: string, p: nat): (r: Option<(nat, nat)>)
    requires p <= |s|
    ensures r.Some? ==> p <= r.value.0 <= r.value.1 && r.value.1 + |close| <= |s|
  {
    var i := FindFrom(s, open, p);
    if i.None? then None
    else
      var j := FindFrom(s, close, i.value + |open|);
      if j.None? then None else Some((i.value + |open|, j.value))
  }

  /** The captures of all matches at or after `p`; each search resumes after the previous match. */
  function Between(s: string, open: string, close: string, p: nat): seq<string>
    requires p <= |s| && |close| > 0
    decreases |s| - p
  {
    var n := Next(s, open, close, p);
    if n.None? then [] else [s[n.value.0..n.value.1]] + Between(s, open, close, n.value.1 + |close|)
  }

  /** The text a match captures is enclosed by `open` and the first `close` after it. */
  lemma NextEnclosed(s: string, open: string, close: string, p: nat)
    requires p <= |s| && Next(s, open, close, p).Some?
    ensures EnclosedAt(s, open, close, s[Next(s, open, close, p).value.0..Next(s, open, close, p).value.1], Next(s, open, close, p).value.0)
  {
    var i := FindFrom(s, open, p);
    FindFromFirst(s, open, p);
    var b := i.value + |open|;
    FindFromFirst(s, close, b);
  }

  /** Every capture from `p` on is enclosed. */
  lemma {:induction false} BetweenEnclosed(s: string, open: string, close: string, p: nat)
    requires p <= |s| && |close| > 0
    ensures forall i :: 0 <= i < |Between(s, open, close, p)| ==> Enclosed(s, open, close, Between(s, open, close, p)[i])
    decreases |s| - p
  {
    var n := Next(s, open, close, p);
    if n.Some? {
      var b, e := n.value.0, n.value.1;
      BetweenEnclosed(s, open, close, e + |close|);
      NextEnclosed(s, open, close, p);
      assert Enclosed(s, open, close, s[b..e]);
    }
  }

  lemma BetweenAt(s: string, open: string, close: string, p: nat, b: nat, e: nat)
    requires p <= |s| && |close| > 0
    requires Next(s, open, close, p) == Some((b, e))
    ensures Between(s, open, close, p) == [s[b..e]] + Between(s, open, close, e + |close|)
  {
  }

  lemma BetweenNone(s: string, open: string, close: string, p: nat)
    requires p <= |s| && |close| > 0 && Next(s, open, close, p).None?
    ensures Between(s, open, close, p) == []
  {
  }

  function ShiftPair(q: nat, o: Option<(nat, nat)>): Option<(nat, nat)> {
    if o.None? then None else Some((q + o.value.0, q + o.value.1))
  }

  lemma NextShift(s: string, z: string, open: string, close: string, q: nat, p: nat)
    requires q <= |s| && s[q..] == z && p <= |z|
    ensures Next(s, open, close, q + p) == ShiftPair(q, Next(z, open, close, p))
  {
    FindFromShift(s, z, open, q, p);
    var i := FindFrom(z, open, p);
    if i.Some? {
      FindFromShift(s, z, close, q, i.value + |open|);
    }
  }

  /** Scanning `s` from `q + p` captures what scanning its suffix `z = s[q..]` from `p` does. */
  lemma {:induction false} BetweenShift(s: string, z: string, open: string, close: string, q: nat, p: nat)
    requires q <= |s| && s[q..] == z && p <= |z| && |close| > 0
    ensures Between(s, open, close, q + p) == Between(z, open, close, p)
    decreases |z| - p
  {
    var n := Next(z, open, close, p);
    if n.None? {
      NextShift(s, z, open, close, q, p);
      BetweenNone(s, open, close, q + p);
      BetweenNone(z, open, close, p);
    } else {
      var b, e := n.value.0, n.value.1;
      BetweenShift(s, z, open, close, q, e + |close|);
      BetweenShiftCapture(s, z, open, close, q, p, b, e);
    }
  }

  /** The capture found in `z` from `p` is the one found in `s` from `q + p`. */
  lemma BetweenShiftCapture(s: string, z: string, open: string, close: string, q: nat, p: nat, b: nat, e: nat)
    requires q <= |s| && s[q..] == z && p <= |z| && |close| > 0
    requires Next(z, open, close, p) == Some((b, e))
    requires Between(s, open, close, q + (e + |close|)) == Between(z, open, close, e + |close|)
    ensures Between(s, open, close, q + p) == Between(z, open, close, p)
  {
    NextShift(s, z, open, close, q, p);
    SliceShift(s, z, q, b, e);
    BetweenShiftStep(s, z, open, close, q + p, q + b, q + e, p, b, e);
  }

  /** One capture of the scan above: the same capture, then the same remaining captures. */
  lemma BetweenShiftStep(s: string, z: string, open: string, close: string, ps: nat, bs: nat, es: nat, p: nat, b: nat, e: nat)
    requires ps <= |s| && p <= |z| && |close| > 0
    requires Next(s, open, close, ps) == Some((bs, es))
    requires Next(z, open, close, p) == Some((b, e))
    requires s[bs..es] == z[b..e]
    requires Between(s, open, close, es + |close|) == Between(z, open, close, e + |close|)
    ensures Between(s, open, close, ps) == Between(z, open, close, p)
  {
    BetweenAt(s, open, close, ps, bs, es);
    BetweenAt(z, open, close, p, b, e);
  }

  /** The pieces of `h + o + c + cl + r` at their offsets. */
  lemma Pieces(h: string, o: string, c: string, cl: string, r: string)
    ensures (h + o + c + cl + r)[|h| + |o|..] == c + cl + r
    ensures (h + o + c + cl + r)[|h| + |o|..|h| + |o| + |c|] == c
    ensures (h + o + c + cl + r)[|h| + |o| + |c| + |cl|..] == r
  {
    var s := h + o + c + cl + r;
    assert s == (h + o) + (c + cl + r);
    assert s == (h + o + c + cl) + r;
  }

  /** The first match in `h + open + c + close + rest`, when it is the `open` after `h`. */
  lemma NextFront(h: string, open: string, c: string, close: string, rest: string)
    requires |close| > 0 && forall i :: 0 <= i < |c| ==> c[i] != close[0]
    requires Find(h + open + c + close + rest, open) == Some(|h|)
    ensures Next(h + open + c + close + rest, open, close, 0) == Some((|h| + |open|, |h| + |open| + |c|))
  {
    var s := h + open + c + close + rest;
    var q := |h| + |open|;
    FindFromSuffix(s, open, 0);
    assert s[0..] == s;
    Pieces(h, open, c, close, rest);
    FindFromSuffix(s, close, q);
    FindAfter(c, close, rest);
  }

  /** The first match encloses `c`; the captures after it are those of `rest`. */
  lemma BetweenFront(h: string, open: string, c: string, close: string, rest: string)
    requires |close| > 0 && forall i :: 0 <= i < |c| ==> c[i] != close[0]
    requires Find(h + open + c + close + rest, open) == Some(|h|)
    ensures Between(h + open + c + close + rest, open, close, 0) == [c] + Between(rest, open, close, 0)
  {
    var s := h + open + c + close + rest;
    var q := |h| + |open|;
    NextFront(h, open, c, close, rest);
    Pieces(h, open, c, close, rest);
    BetweenFirst(s, open, close, q, q + |c|, rest);
  }

  /** The first match captures `s[b..e]`; the captures after it are those of the suffix past its `close`. */
  lemma BetweenFirst(s: string, open: string, close: string, b: nat, e: nat, rest: string)
    requires |close| > 0 && Next(s, open, close, 0) == Some((b, e)) && s[e + |close|..] == rest
    ensures Between(s, open, close, 0) == [s[b..e]] + Between(rest, open, close, 0)
  {
    BetweenAt(s, open, close, 0, b, e);
    BetweenShift(s, rest, open, close, e + |close|, 0);
  }

  /**
   * When the first `<tag>` of `s` comes after `h` and encloses `c`, which
   * holds no marker, `c` is the first capture and the rest come from `rest`.
   */
  lemma InTagsFront(s: string, tag: string, h: string, c: string, rest: string)
    requires s == h + TagText(tag) + c + TagText("/" + tag) + rest
    requires Find(s, TagText(tag)) == Some(|h|) && AngleFree(c)
    ensures InTags(s, tag) == [c] + InTags(rest, tag)
  {
    var close := TagText("/" + tag);
    assert close[0] == '<';
    BetweenFront(h, TagText(tag), c, close, rest);
  }

  /** A subject without any `<tag>` yields no captures. */
  lemma InTagsAbsent(s: string, tag: string)
    requires !Occurs(TagText(tag), s)
    ensures InTags(s, tag) == []
  {
    FindSound(s, TagText(tag));
    FindFromSuffix(s, TagText(tag), 0);
    assert s[0..] == s;
  }

  /** A single enclosed text is read back exactly. */
  lemma InTagsSingle(tag: string, c: string)
    requires AngleFree(c)
    ensures InTags(TagText(tag) + c + TagText("/" + tag), tag) == [c]
  {
    var s := TagText(tag) + c + TagText("/" + tag);
    assert s == "" + TagText(tag) + c + TagText("/" + tag) + "";
    FindAfter("", TagText(tag), c + TagText("/" + tag));
    InTagsFront(s, tag, "", c, "");
    assert !Occurs(TagText(tag), "");
    InTagsAbsent("", tag);
  }
}
